=== FILE: README.md ===
# Wartungsplan, modelled in Dafny

Wartungsplan ("maintenance plan") takes the occurrences of recurring calendar
events in a date window and hands each one to a backend. The backend prints
it, mails it, or opens an OTRS ticket for it. An event's description may start
with `Key: value` header lines that steer the backend. The companion tool
`addEventToIcal` writes such events.

This project models the following, as pure functions over immutable data:

- `Backend._split_message` (module `MessageSplit`): it classifies the description's lines into a header block and a body, and warns on `=`. It then reads the header block the way Python's `configparser` does: values are stripped, a repeated key raises `DuplicateOptionError`, and an empty key raises configparser's `ParsingError` (`ConfigParsingError` in the model).
- `Backend.act` (module `Backends`): every event is split, prepared and given its headers in turn, and the action runs once on the whole batch. There is one variant per backend: the base interface, `ListStdout`, `SendEmail` and `OtrsApi`. `act` is modelled as the code is written; the corrected steps listed under "## Findings" stand beside it.
- `SendEmail` (modules `EmailMessage`, `SendEmail`):
  - the message envelope;
  - the overlay of the allow-listed `[headers]` section on the message;
  - one SMTP session for the whole batch, or printing in a dry run.
- `OtrsApi` (module `OtrsApi`):
  - the ticket options: summary, then `[otrs]` or the hard-coded defaults, then the allow-listed headers;
  - the article with its footer;
  - one client and session per request, where the first session that fails to open ends the batch with `False`.
- `Wartungsplan.__init__` and `run_backend` (module `Plan`): a missing start is "now", and a missing end is one day after the start. The recurrence expansion is a parameter.
- `addEventToIcal` (module `AddEventToIcal`):
  - the `--rrule` string split into `key=value` parts, as `main` does it;
  - the end time of day, from `--duration` or from `--end-time`;
  - the event record, with its optional `dtend` and `rrule`.

The environment is a set of parameters, so every result is a function of its
inputs:

- the header-key normalisation of the header store (`keyForm`);
- the rendering of timestamps;
- the date and time parsers;
- the recurrence expansion;
- the answers of the SMTP and OTRS servers (`smtpOk`, `sessionOk`).

Effects are returned as a list (`Outcome.effects`), together with how the call
ended: it returned, possibly with a flag, or it raised an error.

Files:

| file | contents |
|---|---|
| `wrappers.dfy` | `Option` and `Result` |
| `text.dfy` | `split`, `join`, `strip` and ASCII `lower`, with their round trips |
| `config.dfy` | `Errors` (the exceptions as values, `Outcome`) and `Config` (sections, the `[headers]` allow-list) |
| `message_split.dfy` | `_split_message` |
| `email_message.dfy` | `EmailMessage` (the header fields of a message) and `SendEmail` |
| `otrs.dfy` | `OtrsApi` |
| `backends.dfy` | `Backend.act` over the four backends |
| `plan.dfy` | `Wartungsplan` |
| `add_event.dfy` | `addEventToIcal` |

### Behaviour of the code that the model keeps

- **Header keys.** The header pattern `^[A-Za-z0-9-]*: .*$` (src/Wartungsplan.py:103) also accepts an empty key, a line starting `: `. `configparser` then rejects that line with a parsing error.
- **Duplicate header keys.** `configparser` is strict by default: `read_string` (src/Wartungsplan.py:120) raises `DuplicateOptionError` at the second occurrence of a key.
- **Header values.** `configparser` strips whitespace from header values and normalises keys. The key normalisation is the parameter `keyForm`.
- **Line endings.** `data.strip('\r')` (src/Wartungsplan.py:105) removes carriage returns only at the two ends of the text.
- **The list backend.** It does not use the header block, but `act` still splits every description (src/Wartungsplan.py:79), so a description whose headers cannot be read makes it raise.
- **Empty mail batch.** The mail backend connects and logs in even for an empty batch (src/Wartungsplan.py:201-207).
- **Header values on a mail.** The email library refuses a header value that spans lines, and a second Subject, From or To, with `ValueError` (src/Wartungsplan.py:157-159, 173).
- **Ticket arguments.** `pyotrs.Ticket.create_basic` (src/Wartungsplan.py:232-237) refuses an empty title, queue, state, priority or customer user with `ArgumentMissingError`, so an event with an empty summary gets no ticket.
- **OTRS sessions.** The OTRS backend opens a new client and session for every request (src/Wartungsplan.py:254-259).
- **The failure flag.** The OTRS backend's `False` (src/Wartungsplan.py:261) is dropped by `act`, which returns nothing (src/Wartungsplan.py:83).

## Model

| member | source | states |
|---|---|---|
| MessageSplit.HeaderTestMatchesPattern | src/Wartungsplan.py:103 | the executable header test accepts a line exactly when it matches `^[A-Za-z0-9-]*: .*$` (key possibly empty) |
| MessageSplit.HeaderLineParts | src/Wartungsplan.py:103 | a header line is its key, `": "`, and its value, with the key made of key characters |
| MessageSplit.HeaderLineOfParts | src/Wartungsplan.py:103 | conversely `key + ": " + value` is a header line whose key and value read back unchanged |
| MessageSplit.ClassifyLines | src/Wartungsplan.py:104-115 | the header lines are exactly the leading run of header-shaped lines, the body is every later line in order, and a warning is given for exactly the lines up to and including the first non-header line that contain `=` |
| MessageSplit.HeaderModeIsMonotonic | src/Wartungsplan.py:104-115 | once a line is not a header, no later line is a header line, even a header-shaped one |
| MessageSplit.HeaderIffAllBeforeAreHeaders | src/Wartungsplan.py:104-115 | line `j` is a header line exactly when it and every line before it match the header pattern |
| MessageSplit.HeaderCount | src/Wartungsplan.py:104-115 | the header block is the longest prefix of lines that all match, and the line after it does not |
| MessageSplit.ScanStoresEveryPair | src/Wartungsplan.py:120-121 | reading the header pairs succeeds exactly when no two keys normalise alike, and then stores every pair's value under its normalised key and no other key |
| MessageSplit.ScanStopsAtFirstRepeat | src/Wartungsplan.py:120-121 | a failed read names the key of the first pair whose key repeats an earlier one, with every pair before it distinct |
| MessageSplit.ReadHeadersSucceedsIff | src/Wartungsplan.py:120-121 | the header block reads exactly when keys are distinct and none is empty; repeated keys give `DuplicateOptionError` |
| MessageSplit.LookupOfPairs | src/Wartungsplan.py:120-126 | `headers.get(name, default)` is the value of the pair whose key normalises like `name`, or the default when there is none |
| MessageSplit.SplitMessage | src/Wartungsplan.py:99-126 | the split succeeds exactly when the header block reads; its errors are only `DuplicateOptionError` or configparser's `ParsingError` (`ConfigParsingError`); the body lines are the lines after the header block |
| MessageSplit.SplitStoresHeaderLines | src/Wartungsplan.py:99-126 | the header store holds exactly the header lines' keys, each with its line's value stripped of whitespace |
| MessageSplit.RepeatedHeaderRaises | src/Wartungsplan.py:99-126 | two header lines whose keys normalise alike make the split raise `DuplicateOptionError` |
| MessageSplit.EmptyHeaderKeyRaises | src/Wartungsplan.py:99-126 | a header line with an empty key makes the split fail |
| MessageSplit.NoHeaderKeepsText | src/Wartungsplan.py:99-126 | a description whose first line is not a header gives no headers and the whole text, less carriage returns at its ends |
| MessageSplit.EmptyDescription | src/Wartungsplan.py:99-126 | the empty description gives no headers and an empty body |
| Text.JoinSplit | src/Wartungsplan.py:105 | joining the parts of a split with the separator gives back the original text |
| Text.SplitJoin | src/Wartungsplan.py:126 | splitting a join of separator-free parts gives back the parts |
| Text.SplitCount | src/Wartungsplan.py:105 | a split yields one more part than the text has separators |
| Text.Strip | src/Wartungsplan.py:105 | the stripped text is a contiguous piece of the input with only strip characters cut from either side, and does not start or end with one |
| Text.MultiLineIffInnerBreak | src/Wartungsplan.py:173 | a value spans lines, as `str.splitlines` counts them, exactly when it has a line break that does not end it |
| Backends.BuildAll | src/Wartungsplan.py:63-83 | `act`'s loop yields one action per event in event order when every step succeeds, and otherwise raises the first failing event's error |
| Backends.FirstFailureIsRaised | src/Wartungsplan.py:63-83 | the error raised is that of the first event whose step fails |
| Backends.BaseHasNoAction | src/Wartungsplan.py:63-97 | the base backend prepares every event and then raises `NotImplementedError`, with no effect |
| Backends.UnreadableHeadersStopEveryBackend | src/Wartungsplan.py:63-83 | a description whose headers cannot be read makes every backend raise with no effect at all |
| Backends.ListRaisesFirstSplitError | src/Wartungsplan.py:63-83 | the list backend raises the split error of the first unreadable description, which is a duplicate or an empty key |
| Backends.MissingSummaryStopsBeforeAction | src/Wartungsplan.py:63-83 | when the loop reaches an event without a summary, the mail and ticket backends raise `KeyError` with no effect: nothing is sent or created |
| Backends.MailStepSucceedsIff | src/Wartungsplan.py:152-175 | with the mail settings and an allow-list naming each header once, an event's message is built exactly when it has a summary, the summary, sender and recipient are single lines, no allow-listed value spans lines and no allow-listed Subject, From or To is empty; a missing summary is `KeyError`, every other failure `ValueError` |
| Backends.OtrsStepFailsIff | src/Wartungsplan.py:219-244 | an event's ticket request fails exactly when the event has no summary (`KeyError`) or a ticket argument ends up empty (`ArgumentMissingError`) |
| Backends.ListRecordLines | src/Wartungsplan.py:135-142 | a list record of single-line fields reads back as summary, description, start, end and the rule line |
| Backends.ListPrintsOneRecordPerEvent | src/Wartungsplan.py:129-147 | the list backend prints exactly one record per event, in event order, and returns nothing |
| Backends.MailSendsOneMessagePerEvent | src/Wartungsplan.py:177-208 | when every event's message is built and the server accepts every step, the run sends event `i`'s message, as the code builds it, as the `i`-th message of one session and returns |
| Backends.MailDryRunOnlyPrints | src/Wartungsplan.py:183-187 | a mail dry run only prints |
| Backends.OtrsDryRunOnlyLogs | src/Wartungsplan.py:250-253 | a ticket dry run only logs |
| Backends.DryRunTouchesNoServer | src/Wartungsplan.py:183-187 | whatever the backend, a dry run connects to no server and creates no ticket |
| Backends.FailedSessionIsNotReported | src/Wartungsplan.py:255-262 | when the first ticket session fails, the run stops after opening it and `act` returns normally; the `False` flag is lost |
| EmailMessage.Named | src/Wartungsplan.py:166-175 | the fields carrying a header are exactly those whose name matches without regard to ASCII case |
| EmailMessage.NamedInOrder | src/Wartungsplan.py:166-175 | those fields are listed in the order the message holds them: the `k`-th is the field at the `k`-th matching position |
| EmailMessage.Delete | src/Wartungsplan.py:172 | `del msg[name]` removes every field of that name and leaves all other names as they were |
| EmailMessage.Append | src/Wartungsplan.py:173 | `msg[name] = value` adds one field after the existing ones of that name, changing no other name |
| SendEmail.Prepare | src/Wartungsplan.py:152-164 | the message is built exactly when sender and recipient are configured, the summary is present, and summary, sender and recipient are single lines; it then has exactly Subject, From and To with those values and the body as content; a missing summary is `KeyError`, a multi-line summary `ValueError` |
| SendEmail.EnvelopeFields | src/Wartungsplan.py:157-162 | a new envelope reads back the subject, sender, recipient and body it was built from |
| SendEmail.SetHeader | src/Wartungsplan.py:173 | `msg[name] = value` raises `ValueError` exactly when the header is unique (Subject, From, To, …) and already present, or the value spans lines; otherwise it adds the field |
| SendEmail.ApplyHeader | src/Wartungsplan.py:170-174 | after one step the header appears exactly once with the new value, and other headers and the content are unchanged |
| SendEmail.ApplyHeaderAsWritten | src/Wartungsplan.py:170-174 | as written, a step raises exactly when the header is unique and present with the empty value, which is kept, or the new value spans lines; a non-unique empty header is doubled; otherwise the step equals the intended one |
| SendEmail.ApplyHeadersSetsEachOnce | src/Wartungsplan.py:166-175 | every allow-listed header appears exactly once, carrying the event's value if it sets one and the configured default otherwise |
| SendEmail.ApplyHeadersKeepsOthers | src/Wartungsplan.py:166-175 | a header outside the allow-list is not touched, so an event header that is not allow-listed never reaches the message |
| SendEmail.AsWrittenAgreesWithoutEmptyFields | src/Wartungsplan.py:166-175 | on a message without empty fields the code as written and the intended overlay give the same message |
| SendEmail.AsWrittenFailsIff | src/Wartungsplan.py:166-175 | with an allow-list naming each header once, the loop as written raises exactly when some header's step would raise on the message as it was before the loop |
| SendEmail.AsWrittenRaisesFirst | src/Wartungsplan.py:166-175 | the error is the `ValueError` of the first allow-listed header whose step raises |
| SendEmail.AsWrittenRaisesBeforeLast | src/Wartungsplan.py:169-175 | when that first raising header is not the last one, the loop stops there and the later headers are never set |
| SendEmail.EnvelopeOverlaySucceedsIff | src/Wartungsplan.py:157-175 | on a new envelope, the loop as written succeeds exactly when no allow-listed value spans lines and no allow-listed Subject, From or To is empty |
| SendEmail.EmptySummaryRaises | src/Wartungsplan.py:158-173 | an empty summary with Subject allow-listed makes the code as written raise `ValueError`, where the intended overlay leaves one Subject with its default |
| SendEmail.DryRunOnlyPrints | src/Wartungsplan.py:183-187 | a dry run prints each message in order, opens no connection and returns |
| SendEmail.Accepted | src/Wartungsplan.py:204-206 | the number of messages the server accepts before the first refusal |
| SendEmail.SessionSendsInOrderAndCloses | src/Wartungsplan.py:188-208 | a real run connects, logs in, sends the accepted messages in order, and closes the session both on success and when a send is refused |
| SendEmail.EmptyBatchStillConnects | src/Wartungsplan.py:188-208 | an empty batch still connects, logs in and closes |
| OtrsApi.BaseOptions | src/Wartungsplan.py:220-225 | the options are exactly title, queue, state, priority and customer user; the title is the summary and each setting is `[otrs]`'s value under the section's normalised key, or its hard-coded default |
| OtrsApi.OverlayLastEntryWins | src/Wartungsplan.py:227-230 | an allow-listed header overrides its option with the event's value or the configured default |
| OtrsApi.OverlayKeepsOthers | src/Wartungsplan.py:227-230 | options that no allow-listed header names keep their values |
| OtrsApi.SettingFromConfigOrDefault | src/Wartungsplan.py:220-225 | a ticket setting not in the allow-list is `[otrs]`'s value under the section's normalised key, or the hard-coded default (queue, state, priority, customer user) |
| OtrsApi.ConfiguredCustomUserIsFound | src/Wartungsplan.py:219-225 | read from the configparser section `main` passes, `customUser = Tom` (stored as `customuser`) gives the customer user Tom, not the default |
| OtrsApi.EmptyConfiguredCustomUserIsMissing | src/Wartungsplan.py:225-237 | an empty `customUser =` in `[otrs]` stops the ticket with `ArgumentMissingError` for `CustomerUser` |
| OtrsApi.HeaderOverridesSetting | src/Wartungsplan.py:227-230 | an allow-listed setting is the event's header value when present and the configured header default otherwise |
| OtrsApi.TitleIsSummary | src/Wartungsplan.py:220-230 | unless the allow-list names `title`, the ticket title is the summary |
| OtrsApi.CreateBasic | src/Wartungsplan.py:232-237 | the ticket is created exactly when title, queue, state, priority and customer user are all non-empty, and then carries them; an empty title is reported first, and every refusal is `ArgumentMissingError` |
| OtrsApi.EmptySummaryMissesTitle | src/Wartungsplan.py:220-237 | an event with an empty summary, and no allow-listed title, gets `ArgumentMissingError` for its title |
| OtrsApi.ConfigThenHeaderDefaultThenEventHeader | test/test.py:185-233 | the queue comes from `[otrs]`, then from a `[headers]` default, then from the event's header, as the test expects |
| OtrsApi.MakeRequest | src/Wartungsplan.py:232-243 | the request is built exactly when the ticket arguments are complete; the article's subject is the ticket's title, which is the option title, and its body is the text, a blank line and the footer |
| OtrsApi.PrepareAsWritten | src/Wartungsplan.py:219-244 | the code as written builds a request exactly when the summary is present and the ticket arguments are complete; the article body ends with the top-level footer; a missing summary is `KeyError`, an empty argument `ArgumentMissingError` |
| OtrsApi.Prepare | src/Wartungsplan.py:219-244 | the intended request succeeds and fails as the code does, and its article body ends with `[otrs]`'s footer |
| OtrsApi.FooterIsIgnored | src/Wartungsplan.py:242 | with a footer in `[otrs]` and none at the top level, the code as written leaves it out while the intended request includes it |
| OtrsApi.DryRunOnlyLogs | src/Wartungsplan.py:250-253 | a dry run logs every request in order and returns `True` |
| OtrsApi.SessionsUp | src/Wartungsplan.py:254-262 | the number of requests whose sessions open before the first one that fails |
| OtrsApi.StopsAtFirstFailedSession | src/Wartungsplan.py:246-267 | a real run creates a ticket for every request up to the first failed session, then opens that one and returns `False`; otherwise all tickets are created and it returns `True` |
| OtrsApi.FirstSessionFails | src/Wartungsplan.py:254-262 | a failing first session gives exactly a client and a session attempt, and `False` |
| Plan.ResolveWindow | src/Wartungsplan.py:273-290 | the window resolves exactly when every given date parses; an unparsable start is the error, and otherwise an unparsable end is |
| Plan.EmptyArgumentIsMissing | src/Wartungsplan.py:278-288 | an empty date argument is treated exactly as a missing one |
| Plan.GivenStartIgnoresNow | src/Wartungsplan.py:278-281 | when a start is given, the current time plays no part in the window |
| Plan.MissingEndGivesOneDay | src/Wartungsplan.py:285-286 | without an end date the window resolves whenever the start does, and spans exactly one day |
| Plan.WindowDefaults | src/Wartungsplan.py:278-290 | a missing start is now, and a missing end is one day after the start |
| Plan.NoArgumentsGiveOneDayFromNow | src/Wartungsplan.py:278-290 | with neither date given, or both empty, the window is one day from now |
| Plan.ReversedWindowIsAccepted | src/Wartungsplan.py:278-290 | an end before the start is not rejected |
| Plan.DefaultListRun | src/Wartungsplan.py:302-304 | listing with no dates prints one record per event of the coming day |
| AddEventToIcal.IsPairIffOneEquals | src/addEventToIcal.py:108 | a part unpacks into key and value exactly when it has one `=` |
| AddEventToIcal.PairParts | src/addEventToIcal.py:108 | an unpackable part is its key, `=`, and its value |
| AddEventToIcal.ParseParts | src/addEventToIcal.py:106-109 | the parts read exactly when each has one `=`, and then give one entry per lower-cased key; otherwise the first bad part is the `ValueError` |
| AddEventToIcal.PartsLastWins | src/addEventToIcal.py:107-109 | a key holds the value of its last part |
| AddEventToIcal.ParseRRule | src/addEventToIcal.py:104-109 | an empty rule gives no parts; otherwise the rule reads exactly when each `;`-separated part has one `=` |
| AddEventToIcal.RRuleErrorNamesFirstBadPart | src/addEventToIcal.py:104-109 | a rejected rule is rejected with its first part that lacks a single `=` |
| AddEventToIcal.RRuleLastWins | src/addEventToIcal.py:104-109 | in a rule that reads, a key holds the value of its last part |
| AddEventToIcal.EmptyPartIsAnError | src/addEventToIcal.py:104-109 | a leading or trailing `;` or `;;` makes the rule fail |
| AddEventToIcal.RRuleRoundTrip | src/addEventToIcal.py:104-109 | rendering `key=value` pairs joined by `;` and reading them back gives those pairs with lower-cased keys |
| AddEventToIcal.PropertyNameKeptInKey | src/addEventToIcal.py:88 | the default `RRULE:FREQ=DAILY` reads as the key `rrule:freq`, not `freq` |
| AddEventToIcal.ParseRRuleStripped | src/addEventToIcal.py:88-109 | the intended reading drops a leading `RRULE:` in any case and otherwise reads as written |
| AddEventToIcal.PropertyNameStripped | src/addEventToIcal.py:88 | with the prefix dropped, `RRULE:key=value` reads as `key` |
| AddEventToIcal.StrippedRoundTrip | src/addEventToIcal.py:88-109 | `RRULE:` followed by rendered pairs reads back as those pairs |
| AddEventToIcal.ParseInt | src/addEventToIcal.py:59-60 | `int(s)` succeeds exactly on optionally signed runs of ASCII digits, and otherwise raises `ValueError` |
| AddEventToIcal.ParseIntOfSigned | src/addEventToIcal.py:59-60 | the decimal rendering of any integer reads back as that integer |
| AddEventToIcal.ParseDuration | src/addEventToIcal.py:58-60 | a duration reads only if it has a second `:`-piece and both first pieces are integers |
| AddEventToIcal.DurationOfParts | src/addEventToIcal.py:58-60 | `H:M` is `60*H + M` minutes |
| AddEventToIcal.EndTime | src/addEventToIcal.py:58-63 | without a duration the end time is the parsed `--end-time`; with one, it succeeds exactly when the duration reads |
| AddEventToIcal.DurationSetsEndTime | src/addEventToIcal.py:58-61 | the end time is start plus the duration, wrapped into the day |
| AddEventToIcal.WholeDaysEndWhereTheyStart | src/addEventToIcal.py:58-61 | a duration of whole days ends at the start's time of day |
| AddEventToIcal.DurationIgnoresEndTimeArgument | src/addEventToIcal.py:57-61 | with a duration, `--end-time` plays no part |
| AddEventToIcal.DurationWithoutMinutes | src/addEventToIcal.py:58-60 | a duration without `:` raises `IndexError` if it is an integer and `ValueError` otherwise |
| AddEventToIcal.ExtraDurationPiecesIgnored | src/addEventToIcal.py:58-60 | pieces after the second `:` are ignored |
| AddEventToIcal.AddEventAsWritten | src/addEventToIcal.py:44-73 | as written, a duration together with an end date always fails; a built event has the title, description, dtstart from the start date and time, rrule exactly when non-empty, and dtend exactly with an end date, on that date at the parsed `--end-time` |
| AddEventToIcal.EndTimeGivesEnd | src/addEventToIcal.py:52-69 | with an end date and no duration, the event is built exactly when both dates and both times parse, and ends on the end date at the `--end-time` |
| AddEventToIcal.AddEvent | src/addEventToIcal.py:44-73 | the intended event: dtstart from the start date and time, dtend exactly when an end date is given (without a duration, on that date at the `--end-time`), rrule exactly when non-empty |
| AddEventToIcal.AddEventSucceedsIff | src/addEventToIcal.py:44-73 | the event is built exactly when the start date, the end date if given, the start time and the end time or duration all parse |
| AddEventToIcal.DurationGivesEnd | src/addEventToIcal.py:58-69 | with a duration and an end date, dtend is the end date at the start time plus the duration |
| AddEventToIcal.DurationWithEndDateRaises | src/addEventToIcal.py:61-69 | where the intended event exists, the code as written raises `AttributeError` for a duration with an end date |
| AddEventToIcal.AsWrittenAgreesOtherwise | src/addEventToIcal.py:44-73 | without that combination the code as written and the intended event agree |
| AddEventToIcal.UnusedEndTimeIsStillParsed | src/addEventToIcal.py:62-63 | without an end date or duration, a bad `--end-time` still raises `ValueError` although no dtend is written |
| AddEventToIcal.AddEventFromArguments | src/addEventToIcal.py:104-117 | `main` as written: an unreadable rule fails before the event is built; otherwise the event is `add_event` as written with the rule read as-is, present exactly when non-empty |
| AddEventToIcal.PropertyNameRunRepeats | src/addEventToIcal.py:88-117 | as written, a rule given as `RRULE:key=value` reaches the event as `{rrule:key: value}` |
| AddEventToIcal.DefaultRuleAsWritten | src/addEventToIcal.py:88-109 | the default rule `RRULE:FREQ=DAILY` reads as `{"rrule:freq": "DAILY"}` |
| AddEventToIcal.AddEventFromArgumentsIntended | src/addEventToIcal.py:88-117 | the intended command: the rule is read without its property name, and the event is the intended one |
| AddEventToIcal.PropertyNameRunRepeatsIntended | src/addEventToIcal.py:88-117 | intended, `RRULE:key=value` reaches the event as `{key: value}` |
| AddEventToIcal.DefaultRuleIntended | src/addEventToIcal.py:88-109 | intended, the default rule reads as `{"freq": "DAILY"}` |

## Left out

- Reading and writing files (the `.ics` calendar, the configuration file, the log file), `argparse`, logging setup and `main`: these are I/O and plumbing around the modelled functions.
- The recurrence expansion (`recurring_ical_events`): it is a library, and it is the parameter `expand` of `Plan.NewPlan`. The window bounds it receives and the order of its output are its own contract.
- Timezones and `astimezone()`: times are plain integers of wall-clock seconds before time-zone conversion. Converting a naive time to local time is left to the parser parameter. `Plan.MissingEndGivesOneDay`'s one day is one wall-clock day (`timedelta(1)` is added before `astimezone()`), so across a daylight-saving change the real window is 23 or 25 hours long.
- `dateutil.parser.parse` and `datetime.strptime`: these are the parameters `parse`, `parseDate` and `parseTime`, which return `None` for text they reject.
- The SMTP and OTRS servers: their answers are the oracles `smtpOk` (step 0 connect, 1 login, `2 + k` send message `k`) and `sessionOk` (session of request `i`). A refused SMTP step raises, and the session is still closed, as the `with` block does.
- `ticket_create`'s reply and its failures, and `pyotrs` object serialisation (`to_dct`): the reply is only logged.
- The `pyotrs` import check in `OtrsApi.__init__`: it is an import-time side effect, outside the modelled functions.
- SendEmail.ApplyHeaders: the intended overlay is stated without the email library's checks on header values; `SendEmail.SetHeader` and the as-written overlay, which `act` uses, carry them.
- SendEmail.SetHeader: the email library's parsing of structured header values (addresses, dates) and the errors it raises for them are not modelled; only unique headers and values that span lines are refused.
- `pyotrs` is not part of this model. The checks of `create_basic` are modelled as that library documents them: each required argument must be non-empty.
- `email.message.EmailMessage.set_content`: the MIME headers it adds (Content-Type, MIME-Version, Content-Transfer-Encoding) and its line-ending rules are not modelled. The message keeps the body text as content.
- `str(...)` of a calendar property object: summary and description are plain strings. A missing one prints as `None`, as `Backends.Shown` says.
- `configparser` interpolation (`%` in header values) and multi-line continuation values: a header line is one line, so continuation never applies. Interpolation errors are not modelled.
- OtrsApi.BaseOptions: `[otrs]` is a map plus the key normalisation its lookups apply (`otrsKey`: lower-casing for the configparser section the command line program passes, the identity for a plain dict). The `%` interpolation configparser applies to values of `[otrs]`, `[mail]` and `[headers]` is not modelled; a value with a lone `%` (a password, say) raises `InterpolationSyntaxError` in the source and is read verbatim in the model.
- `[mail]` and `[otrs]` keys `server`, `port`, `username`, `password`, `sender` and `recipient` are looked up exactly as written; they are already lower case, so configparser's lower-casing does not change them.
- MessageSplit.SplitMessage: key normalisation (`optionxform`, `str.lower`) is the parameter `keyForm`, and not fixed to Unicode lower-casing.
- Config.SameName: header names compare with ASCII lower-casing only; Python's email library also folds non-ASCII letters.
- AddEventToIcal.ParseInt: `int()` also accepts surrounding whitespace, `_` between digits and non-ASCII decimal digits. These inputs are reported as `ValueError` here.
- AddEventToIcal.ParseParts: `key.lower()` lower-cases every letter; the model lower-cases ASCII letters only.
- AddEventToIcal.EndTime: the day rollover of `start + duration` is not carried into the date. `add_event` itself only keeps the `.time()` part, so the rollover is lost there too. Python's `OverflowError` near the end of the calendar is not modelled.
- `load_existing_calendar`, `add_component` and `to_ical`: these are calendar file I/O. `AddEventToIcal.AddEvent` returns the event record that would be added.
- `downloadExchange` and the tools directory are not part of this model.
- `string_to_rrule`, which the tests call, is not part of this model: `addEventToIcal` has no such function. Its expectations (empty parts tolerated, `BYDAY` lists split) contradict the inline parser that is modelled.

## Findings

| source | as written | input that shows it | evidently intended | confidence | as-written member | corrected member |
|---|---|---|---|---|---|---|
| src/Wartungsplan.py:242 | the article footer is read with `self.config.get("footer", "")`, at the top level of the backend's configuration, which `main` builds from only `otrs` and `headers` | `[otrs] footer = Regards` with any event: the article body is `text + "\n\n"` with no footer | read `footer` from the `[otrs]` section | not executed | OtrsApi.PrepareAsWritten, OtrsApi.FooterIsIgnored | OtrsApi.Prepare |
| src/Wartungsplan.py:170-173 | an existing header is deleted only if `msg[confheader]` is truthy, so a header present with the empty value is kept and the new one is assigned beside it | an event with an empty summary and `Subject` in `[headers]`: the email library allows one Subject, so the assignment raises `ValueError` (a non-unique header would be doubled instead) | delete the existing header whenever it is present | not executed | SendEmail.ApplyHeadersAsWritten, SendEmail.EmptySummaryRaises, Backends.MailStepSucceedsIff | SendEmail.ApplyHeaders, SendEmail.ApplyHeadersSetsEachOnce |
| src/addEventToIcal.py:61-69 | with `--duration`, `end_time` becomes a `time`, and line 69 calls `.time()` on it | `--end-date 2024-01-02 --duration 1:30`: `AttributeError` | dtend on the end date at start time plus duration | not executed | AddEventToIcal.AddEventAsWritten, AddEventToIcal.DurationWithEndDateRaises, AddEventToIcal.AddEventFromArguments | AddEventToIcal.AddEvent, AddEventToIcal.DurationGivesEnd, AddEventToIcal.AddEventFromArgumentsIntended |
| src/addEventToIcal.py:88-109 | the default and documented `--rrule` value `RRULE:FREQ=DAILY` is split as-is, so the property name stays in the first key | no `--rrule`: the rule is `{"rrule:freq": "DAILY"}` | drop the `RRULE:` property name before splitting, giving `{"freq": "DAILY"}` | not executed | AddEventToIcal.ParseRRule, AddEventToIcal.PropertyNameKeptInKey, AddEventToIcal.DefaultRuleAsWritten | AddEventToIcal.ParseRRuleStripped, AddEventToIcal.PropertyNameStripped, AddEventToIcal.DefaultRuleIntended |

=== FILE: add_event.dfy ===
/** `addEventToIcal`: the `--rrule` string read as a map of rule parts, the end
    time of day computed from a duration or read from `--end-time`, and the
    event record with its optional `dtend` and `rrule` fields. */
module AddEventToIcal {
  import opened Wrappers
  import opened Errors
  import opened Text

  // ---------------------------------------------------------------------
  // The RRULE string

  /** The rule parts, keyed by lower-cased name, with their values as text
      (the value syntax of section 3.3.10 of RFC 5545, read shallowly). */
  type RRule = map<string, string>

  /** A part that `key, value = part.split('=')` can unpack: it splits into
      exactly two pieces. */
  predicate IsPair(part: string) {
    |SplitOn(part, '=')| == 2
  }

  /** That is, it has exactly one '='. */
  lemma IsPairIffOneEquals(part: string)
    ensures IsPair(part) <==> multiset(part)['='] == 1
  {
    SplitCount(part, '=');
  }

  /** The text before the first '=' of a part. */
  function PairKey(part: string): string {
    SplitOn(part, '=')[0]
  }

  /** The text after the '=' of a pair. */
  function PairValue(part: string): string
    requires IsPair(part)
  {
    SplitOn(part, '=')[1]
  }

  /** A pair is its key, '=' and its value, and neither contains '='. */
  lemma PairParts(part: string)
    requires IsPair(part)
    ensures part == PairKey(part) + "=" + PairValue(part)
    ensures '=' !in PairKey(part) && '=' !in PairValue(part)
  {
    JoinSplit(part, '=');
    var pieces := SplitOn(part, '=');
    assert Join(pieces, "=") == pieces[0] + "=" + Join(pieces[1..], "=");
  }

  /** Conversely, a key and a value without '=' joined by '=' form a pair
      with that key and value. */
  lemma PairOfParts(key: string, value: string)
    requires '=' !in key && '=' !in value
    ensures IsPair(key + "=" + value)
    ensures PairKey(key + "=" + value) == key
    ensures PairValue(key + "=" + value) == value
  {
    SplitAtSeparator(key, '=', value);
    SplitWithoutSeparator(value, '=');
  }

  /** The loop over the parts: each part is unpacked in order, its key
      lower-cased and stored, a later part overwriting an earlier one. The
      first part that does not unpack raises ValueError. */
  function ParseParts(parts: seq<string>): (r: Result<RRule, Error>)
    ensures r.Success? <==> forall i :: 0 <= i < |parts| ==> IsPair(parts[i])
    ensures r.Success? ==> r.value.Keys == set i | 0 <= i < |parts| :: AsciiLower(PairKey(parts[i]))
    ensures r.Failure? ==> exists k :: && 0 <= k < |parts| && !IsPair(parts[k])
                                       && r.error == ValueError(parts[k])
                                       && forall i :: 0 <= i < k ==> IsPair(parts[i])
    decreases |parts|
  {
    if |parts| == 0 then Success(map[])
    else
      var init := parts[..|parts| - 1];
      var last := parts[|parts| - 1];
      assert forall i :: 0 <= i < |init| ==> init[i] == parts[i];
      var m :- ParseParts(init);
      if !IsPair(last) then Failure(ValueError(last))
      else Success(m[AsciiLower(PairKey(last)) := PairValue(last)])
  }

  /** The value stored under a key is the value of the last part with that
      lower-cased key. */
  lemma {:induction false} PartsLastWins(parts: seq<string>, i: int)
    requires ParseParts(parts).Success?
    requires 0 <= i < |parts|
    requires forall j :: i < j < |parts| ==> AsciiLower(PairKey(parts[j])) != AsciiLower(PairKey(parts[i]))
    ensures AsciiLower(PairKey(parts[i])) in ParseParts(parts).value
    ensures ParseParts(parts).value[AsciiLower(PairKey(parts[i]))] == PairValue(parts[i])
  {
    var init := parts[..|parts| - 1];
    assert forall k :: 0 <= k < |init| ==> init[k] == parts[k];
    if i < |parts| - 1 {
      PartsLastWins(init, i);
    }
  }

  /** The parts of a rule string: `s.split(';')`. */
  function Parts(s: string): seq<string> {
    SplitOn(s, ';')
  }

  /** `main`'s conversion of `--rrule`: nothing for an empty string, otherwise
      the parts between ';' each unpacked as `key=value`. */
  function ParseRRule(s: string): (r: Result<RRule, Error>)
    ensures s == "" ==> r == Success(map[])
    ensures s != "" ==> (r.Success? <==> forall i :: 0 <= i < |Parts(s)| ==> IsPair(Parts(s)[i]))
    ensures r.Success? && s != "" ==> r.value.Keys == set i | 0 <= i < |Parts(s)| :: AsciiLower(PairKey(Parts(s)[i]))
  {
    if s == "" then Success(map[]) else ParseParts(Parts(s))
  }

  /** An error names the first part that does not unpack. */
  lemma RRuleErrorNamesFirstBadPart(s: string)
    requires ParseRRule(s).Failure?
    ensures var parts := Parts(s);
            exists k :: && 0 <= k < |parts| && !IsPair(parts[k])
                        && ParseRRule(s).error == ValueError(parts[k])
                        && forall i :: 0 <= i < k ==> IsPair(parts[i])
  {
    assert s != "";
  }

  /** A repeated key keeps the value of its last part. */
  lemma RRuleLastWins(s: string, i: int)
    requires s != "" && ParseRRule(s).Success?
    requires 0 <= i < |Parts(s)|
    requires forall j :: i < j < |Parts(s)| ==>
               AsciiLower(PairKey(Parts(s)[j])) != AsciiLower(PairKey(Parts(s)[i]))
    ensures ParseRRule(s).value[AsciiLower(PairKey(Parts(s)[i]))] == PairValue(Parts(s)[i])
  {
    PartsLastWins(Parts(s), i);
  }

  /** `s` has two ';' in a row at position `i`. */
  predicate DoubleSemicolonAt(s: string, i: int) {
    0 <= i && i + 1 < |s| && s[i] == ';' && s[i + 1] == ';'
  }

  /** A leading or trailing ';', or ";;", produces an empty part, which has no
      '=' to unpack: the whole string is rejected. */
  lemma EmptyPartIsAnError(s: string, i: int)
    requires s != ""
    requires s[0] == ';' || s[|s| - 1] == ';' || DoubleSemicolonAt(s, i)
    ensures ParseRRule(s).Failure?
  {
    var parts := Parts(s);
    if s[0] == ';' {
      SplitLeadingSeparator(s, ';');
      assert !IsPair(parts[0]);
    } else if s[|s| - 1] == ';' {
      SplitTrailingSeparator(s, ';');
      assert !IsPair(parts[|parts| - 1]);
    } else {
      SplitDoubleSeparator(s, ';', i);
      var k :| 1 <= k < |parts| && parts[k] == "";
      assert !IsPair(parts[k]);
    }
  }

  /** The rule parts written out as `key=value` separated by ';'. */
  function Render(pairs: seq<(string, string)>): string {
    Join(RenderParts(pairs), ";")
  }

  function RenderParts(pairs: seq<(string, string)>): (parts: seq<string>)
    ensures |parts| == |pairs|
    ensures forall i :: 0 <= i < |pairs| ==> parts[i] == pairs[i].0 + "=" + pairs[i].1
  {
    seq(|pairs|, i requires 0 <= i < |pairs| => pairs[i].0 + "=" + pairs[i].1)
  }

  /** The map that the pairs denote: lower-cased keys, the last pair of a key
      winning. */
  function ToRRule(pairs: seq<(string, string)>): RRule
    decreases |pairs|
  {
    if |pairs| == 0 then map[]
    else ToRRule(pairs[..|pairs| - 1])[AsciiLower(pairs[|pairs| - 1].0) := pairs[|pairs| - 1].1]
  }

  /** Keys and values free of '=' and ';'. */
  predicate PlainPairs(pairs: seq<(string, string)>) {
    forall i :: 0 <= i < |pairs| ==> PlainPair(pairs[i])
  }

  predicate PlainPair(p: (string, string)) {
    '=' !in p.0 && '=' !in p.1 && ';' !in p.0 && ';' !in p.1
  }

  lemma {:induction false} ParseRenderedParts(pairs: seq<(string, string)>)
    requires PlainPairs(pairs)
    ensures ParseParts(RenderParts(pairs)) == Success(ToRRule(pairs))
    decreases |pairs|
  {
    if |pairs| > 0 {
      var init := pairs[..|pairs| - 1];
      var last := pairs[|pairs| - 1];
      assert RenderParts(pairs)[..|pairs| - 1] == RenderParts(init);
      ParseRenderedParts(init);
      PairOfParts(last.0, last.1);
    }
  }

  /** Parsing the written-out form of at least one plain pair gives back the
      map the pairs denote. */
  lemma RRuleRoundTrip(pairs: seq<(string, string)>)
    requires |pairs| >= 1 && PlainPairs(pairs)
    ensures ParseRRule(Render(pairs)) == Success(ToRRule(pairs))
  {
    var parts := RenderParts(pairs);
    forall i | 0 <= i < |parts|
      ensures ';' !in parts[i]
    {
      assert parts[i] == pairs[i].0 + "=" + pairs[i].1;
    }
    SplitJoin(parts, ';');
    assert '=' in parts[0];
    assert Render(pairs) != "" by {
      if |parts| == 1 {
        assert Render(pairs) == parts[0];
      } else {
        assert Render(pairs) == parts[0] + ";" + Join(parts[1..], ";");
      }
    }
    ParseRenderedParts(pairs);
  }

  /** A single `key=value` part. */
  lemma SinglePair(key: string, value: string)
    requires PlainPair((key, value))
    ensures ParseRRule(key + "=" + value) == Success(map[AsciiLower(key) := value])
  {
    RRuleRoundTrip([(key, value)]);
    assert Render([(key, value)]) == key + "=" + value;
  }

  /** The property name of the content line, as the default `--rrule`
      ("RRULE:FREQ=DAILY") carries it. */
  const PropertyName: string := "RRULE:"

  /** As written, a value that carries the property name keeps it inside the
      first key: the default gives a part named "rrule:freq" and no part
      named "freq". */
  lemma PropertyNameKeptInKey(key: string, value: string)
    requires PlainPair((key, value))
    ensures ParseRRule(PropertyName + key + "=" + value) == Success(map["rrule:" + AsciiLower(key) := value])
    ensures AsciiLower(key) !in ParseRRule(PropertyName + key + "=" + value).value
  {
    var named := PropertyName + key;
    assert PlainPair((named, value)) by {
      assert '=' !in PropertyName && ';' !in PropertyName;
    }
    SinglePair(named, value);
    assert AsciiLower(named) == "rrule:" + AsciiLower(key) by {
      AsciiLowerAppend(PropertyName, key);
      assert AsciiLower(PropertyName) == "rrule:";
    }
  }

  /** The property name, lower-cased. */
  const RRulePrefix: string := "rrule:"

  predicate HasRRulePrefix(s: string) {
    |s| >= |RRulePrefix| && AsciiLower(s[..|RRulePrefix|]) == RRulePrefix
  }

  /** The conversion with a leading `RRULE:` (in any ASCII case) removed
      before the parts are read, as the option's help text intends. */
  function ParseRRuleStripped(s: string): (r: Result<RRule, Error>)
    ensures !HasRRulePrefix(s) ==> r == ParseRRule(s)
    ensures HasRRulePrefix(s) ==> r == ParseRRule(s[|RRulePrefix|..])
  {
    if HasRRulePrefix(s) then ParseRRule(s[|RRulePrefix|..]) else ParseRRule(s)
  }

  /** With the property name removed, a value like the default reads as the
      rule part it names. */
  lemma PropertyNameStripped(key: string, value: string)
    requires PlainPair((key, value))
    ensures ParseRRuleStripped(PropertyName + key + "=" + value) == Success(map[AsciiLower(key) := value])
  {
    StrippedOfPrefixed(key + "=" + value);
    assert PropertyName + key + "=" + value == PropertyName + (key + "=" + value);
    SinglePair(key, value);
  }

  /** The stripped form reads whatever follows the property name as the
      unprefixed form reads it. */
  lemma StrippedOfPrefixed(t: string)
    ensures ParseRRuleStripped(PropertyName + t) == ParseRRule(t)
  {
    var s := PropertyName + t;
    assert s[..|RRulePrefix|] == PropertyName;
    assert AsciiLower(PropertyName) == RRulePrefix;
    assert s[|RRulePrefix|..] == t;
  }

  /** So every written-out rule reads the same with or without the property
      name in front. */
  lemma StrippedRoundTrip(pairs: seq<(string, string)>)
    requires |pairs| >= 1 && PlainPairs(pairs)
    ensures ParseRRuleStripped(PropertyName + Render(pairs)) == Success(ToRRule(pairs))
  {
    StrippedOfPrefixed(Render(pairs));
    RRuleRoundTrip(pairs);
  }

  // ---------------------------------------------------------------------
  // Integers and the duration

  predicate IsDigit(c: char) {
    '0' <= c <= '9'
  }

  /** A non-empty run of ASCII digits. */
  predicate IsDigits(s: string) {
    |s| > 0 && forall i :: 0 <= i < |s| ==> IsDigit(s[i])
  }

  /** The number a run of digits denotes, most significant digit first. */
  function DigitsValue(s: string): nat
    requires forall i :: 0 <= i < |s| ==> IsDigit(s[i])
    decreases |s|
  {
    if |s| == 0 then 0
    else
      assert IsDigit(s[|s| - 1]);
      DigitsValue(s[..|s| - 1]) * 10 + (s[|s| - 1] as int - '0' as int)
  }

  /** The strings `int(...)` accepts here: an optional sign and digits. */
  predicate IntSyntax(s: string) {
    IsDigits(s) || (|s| >= 2 && (s[0] == '+' || s[0] == '-') && IsDigits(s[1..]))
  }

  /** `int(s)`, or ValueError. */
  function ParseInt(s: string): (r: Result<int, Error>)
    ensures r.Success? <==> IntSyntax(s)
    ensures r.Failure? ==> r.error == ValueError(s)
  {
    if IsDigits(s) then Success(DigitsValue(s) as int)
    else if |s| >= 2 && s[0] == '+' && IsDigits(s[1..]) then Success(DigitsValue(s[1..]))
    else if |s| >= 2 && s[0] == '-' && IsDigits(s[1..]) then Success(-(DigitsValue(s[1..]) as int))
    else Failure(ValueError(s))
  }

  function Digit(d: nat): char
    requires d < 10
  {
    ('0' as int + d) as char
  }

  /** The decimal form of a natural number. */
  function Decimal(n: nat): (s: string)
    ensures IsDigits(s)
    ensures ':' !in s
  {
    if n < 10 then [Digit(n)] else Decimal(n / 10) + [Digit(n % 10)]
  }

  /** The decimal form of an integer, with '-' when negative. */
  function Signed(n: int): (s: string)
    ensures ':' !in s
  {
    if n < 0 then "-" + Decimal(-n) else Decimal(n)
  }

  lemma {:induction false} DecimalValue(n: nat)
    ensures DigitsValue(Decimal(n)) == n
  {
    if n >= 10 {
      var s := Decimal(n);
      assert s[..|s| - 1] == Decimal(n / 10);
      DecimalValue(n / 10);
    }
  }

  /** `int` reads back every integer from its decimal form. */
  lemma ParseIntOfSigned(n: int)
    ensures ParseInt(Signed(n)) == Success(n)
  {
    if n < 0 {
      DecimalValue(-n);
      assert Signed(n)[1..] == Decimal(-n);
    } else {
      DecimalValue(n);
    }
  }

  const MinutesPerDay: int := 1440

  /** A time of day, in minutes after midnight (`%H:%M` has no seconds). */
  type MinuteOfDay = m: int | 0 <= m < MinutesPerDay

  /** Parses with the given parser, or raises ValueError as `strptime` does. */
  function ParseWith<T>(s: string, parse: string -> Option<T>): (r: Result<T, Error>)
    ensures r.Success? <==> parse(s).Some?
    ensures r.Success? ==> r.value == parse(s).value
    ensures r.Failure? ==> r.error == ValueError(s)
  {
    match parse(s)
    case Some(v) => Success(v)
    case None => Failure(ValueError(s))
  }

  /** `timedelta(hours=int(d.split(':')[0]), minutes=int(d.split(':')[1]))`,
      in minutes. The hours are read first, then the minutes (a duration
      without ':' has no minutes: IndexError); pieces after the second are
      ignored. */
  function ParseDuration(duration: string): (r: Result<int, Error>)
    ensures r.Success? ==> && |SplitOn(duration, ':')| >= 2
                           && IntSyntax(SplitOn(duration, ':')[0]) && IntSyntax(SplitOn(duration, ':')[1])
  {
    var pieces := SplitOn(duration, ':');
    var hours :- ParseInt(pieces[0]);
    if |pieces| < 2 then Failure(IndexError)
    else
      var minutes :- ParseInt(pieces[1]);
      Success(60 * hours + minutes)
  }

  /** The end time of day: with a duration, the start plus the duration as a
      time of day; without one, `--end-time` parsed. */
  function EndTime(start: MinuteOfDay, duration: string, endTime: string,
                   parseTime: string -> Option<MinuteOfDay>): (r: Result<MinuteOfDay, Error>)
    ensures duration == "" ==> r == ParseWith<MinuteOfDay>(endTime, parseTime)
    ensures duration != "" ==> (r.Success? <==> ParseDuration(duration).Success?)
    ensures duration != "" && r.Failure? ==> r.error == ParseDuration(duration).error
  {
    if duration != "" then
      var minutes :- ParseDuration(duration);
      Success((start + minutes) % MinutesPerDay)
    else ParseWith<MinuteOfDay>(endTime, parseTime)
  }

  /** `H:M` is H hours and M minutes. */
  lemma DurationOfParts(hours: string, minutes: string)
    requires IntSyntax(hours) && IntSyntax(minutes)
    ensures ParseDuration(hours + ":" + minutes) == Success(60 * ParseInt(hours).value + ParseInt(minutes).value)
  {
    NoColonInInt(hours);
    NoColonInInt(minutes);
    var d := hours + [':'] + minutes;
    assert d == hours + ":" + minutes;
    SplitAtSeparator(hours, ':', minutes);
    SplitWithoutSeparator(minutes, ':');
    assert SplitOn(d, ':') == [hours, minutes];
  }

  /** A duration of `H:M` ends the event H hours and M minutes after its start,
      as a time of day, whatever `--end-time` says; negative parts count
      backwards. */
  lemma DurationSetsEndTime(start: MinuteOfDay, hours: string, minutes: string, endTime: string,
                            parseTime: string -> Option<MinuteOfDay>)
    requires IntSyntax(hours) && IntSyntax(minutes)
    ensures EndTime(start, hours + ":" + minutes, endTime, parseTime)
            == Success((start + 60 * ParseInt(hours).value + ParseInt(minutes).value) % MinutesPerDay)
  {
    DurationOfParts(hours, minutes);
  }

  lemma NoColonInInt(s: string)
    requires IntSyntax(s)
    ensures ':' !in s
  {
    forall i | 0 <= i < |s|
      ensures s[i] != ':'
    {
      if i > 0 && !IsDigits(s) {
        assert s[i] == s[1..][i - 1];
      }
    }
  }

  /** A duration of whole days ends at the time it starts. */
  lemma WholeDaysEndWhereTheyStart(start: MinuteOfDay, hours: string, minutes: string, endTime: string,
                                   parseTime: string -> Option<MinuteOfDay>)
    requires IntSyntax(hours) && IntSyntax(minutes)
    requires (60 * ParseInt(hours).value + ParseInt(minutes).value) % MinutesPerDay == 0
    ensures EndTime(start, hours + ":" + minutes, endTime, parseTime) == Success(start)
  {
    DurationSetsEndTime(start, hours, minutes, endTime, parseTime);
    var d := 60 * ParseInt(hours).value + ParseInt(minutes).value;
    WholeDaysModulo(start, d);
  }

  lemma WholeDaysModulo(start: MinuteOfDay, d: int)
    requires d % MinutesPerDay == 0
    ensures (start + d) % MinutesPerDay == start
  {
    var q := d / MinutesPerDay;
    assert d == q * MinutesPerDay;
  }

  /** With a duration, `--end-time` plays no part. */
  lemma DurationIgnoresEndTimeArgument(start: MinuteOfDay, duration: string,
                                       endTime1: string, parseTime1: string -> Option<MinuteOfDay>,
                                       endTime2: string, parseTime2: string -> Option<MinuteOfDay>)
    requires duration != ""
    ensures EndTime(start, duration, endTime1, parseTime1) == EndTime(start, duration, endTime2, parseTime2)
  {
  }

  /** A duration without ':' is rejected for its missing minutes, unless its
      hours are already malformed, which is reported first. */
  lemma DurationWithoutMinutes(start: MinuteOfDay, duration: string, endTime: string,
                               parseTime: string -> Option<MinuteOfDay>)
    requires duration != "" && ':' !in duration
    ensures IntSyntax(duration) ==> EndTime(start, duration, endTime, parseTime) == Failure(IndexError)
    ensures !IntSyntax(duration) ==> EndTime(start, duration, endTime, parseTime) == Failure(ValueError(duration))
  {
    SplitWithoutSeparator(duration, ':');
  }

  /** Only the first two pieces of a duration are read. */
  lemma SamePiecesSameDuration(d1: string, d2: string)
    requires |SplitOn(d1, ':')| >= 2 && |SplitOn(d2, ':')| >= 2
    requires SplitOn(d1, ':')[0] == SplitOn(d2, ':')[0] && SplitOn(d1, ':')[1] == SplitOn(d2, ':')[1]
    ensures ParseDuration(d1) == ParseDuration(d2)
  {
  }

  /** Seconds or other pieces after the minutes are dropped. */
  lemma ExtraDurationPiecesIgnored(hours: string, minutes: string, extra: string)
    requires ':' !in hours && ':' !in minutes
    ensures ParseDuration(hours + ":" + minutes + ":" + extra) == ParseDuration(hours + ":" + minutes)
  {
    var tail := minutes + [':'] + extra;
    var d1 := hours + [':'] + tail;
    var d2 := hours + [':'] + minutes;
    assert d1 == hours + ":" + minutes + ":" + extra;
    assert d2 == hours + ":" + minutes;
    assert SplitOn(d1, ':') == [hours, minutes] + SplitOn(extra, ':') by {
      SplitAtSeparator(hours, ':', tail);
      SplitAtSeparator(minutes, ':', extra);
    }
    assert SplitOn(d2, ':') == [hours, minutes] by {
      SplitAtSeparator(hours, ':', minutes);
      SplitWithoutSeparator(minutes, ':');
    }
    SamePiecesSameDuration(d1, d2);
  }

  // ---------------------------------------------------------------------
  // The event record

  /** A calendar day (as a day number) and a time of day. */
  datatype DateTime = DateTime(day: int, minute: MinuteOfDay)

  /** The fields `add_event` gives the new VEVENT. */
  datatype IcalEvent = IcalEvent(summary: string, dtstart: DateTime, dtend: Option<DateTime>,
                                 description: string, rrule: Option<RRule>)

  /** The arguments of `add_event`, with date and time parsing as parameters. */
  datatype EventArgs = EventArgs(startDate: string, endDate: string, repeat: RRule,
                                 startTime: string, endTime: string, duration: string,
                                 title: string, description: string)

  /** The end date, parsed only when one is given. */
  function ParseEndDate(endDate: string, parseDate: string -> Option<int>): (r: Result<Option<int>, Error>)
    ensures endDate == "" ==> r == Success(None)
    ensures endDate != "" ==> (r.Success? <==> parseDate(endDate).Some?)
    ensures endDate != "" && r.Success? ==> r.value == Some(parseDate(endDate).value)
    ensures r.Failure? ==> r.error == ValueError(endDate)
  {
    if endDate == "" then Success(None)
    else
      var d :- ParseWith(endDate, parseDate);
      Success(Some(d))
  }

  /** The record: summary, dtstart and description always; dtend only with an
      end date; rrule only with a non-empty rule. */
  function Assemble(a: EventArgs, day: int, startMinute: MinuteOfDay, endDay: Option<int>,
                    endMinute: MinuteOfDay): (e: IcalEvent)
    ensures e.summary == a.title && e.description == a.description
    ensures e.dtstart == DateTime(day, startMinute)
    ensures e.dtend.Some? <==> endDay.Some?
    ensures e.dtend.Some? ==> e.dtend.value == DateTime(endDay.value, endMinute)
    ensures e.rrule.Some? <==> |a.repeat| > 0
    ensures e.rrule.Some? ==> e.rrule.value == a.repeat
  {
    IcalEvent(a.title, DateTime(day, startMinute),
              if endDay.Some? then Some(DateTime(endDay.value, endMinute)) else None,
              a.description,
              if |a.repeat| > 0 then Some(a.repeat) else None)
  }

  /** `add_event` as written: the dates and times are parsed in argument
      order, `--end-time` even when there is no end date to use it; with both
      a duration and an end date the end time is a `time`, and asking it for
      `.time()` raises AttributeError. */
  function AddEventAsWritten(a: EventArgs, parseDate: string -> Option<int>,
                             parseTime: string -> Option<MinuteOfDay>): (r: Result<IcalEvent, Error>)
    ensures a.endDate != "" && a.duration != "" ==> r.Failure?
    ensures r.Success? ==> && parseDate(a.startDate).Some? && parseTime(a.startTime).Some?
                           && r.value.summary == a.title && r.value.description == a.description
                           && r.value.dtstart == DateTime(parseDate(a.startDate).value, parseTime(a.startTime).value)
                           && (r.value.dtend.Some? <==> a.endDate != "")
                           && (r.value.rrule.Some? <==> |a.repeat| > 0)
                           && (r.value.rrule.Some? ==> r.value.rrule.value == a.repeat)
    ensures r.Success? && a.endDate != "" ==>
              && a.duration == "" && parseDate(a.endDate).Some? && parseTime(a.endTime).Some?
              && r.value.dtend == Some(DateTime(parseDate(a.endDate).value, parseTime(a.endTime).value))
  {
    var day :- ParseWith(a.startDate, parseDate);
    var endDay :- ParseEndDate(a.endDate, parseDate);
    var startMinute :- ParseWith(a.startTime, parseTime);
    var endMinute :- EndTime(startMinute, a.duration, a.endTime, parseTime);
    if endDay.Some? && a.duration != "" then Failure(AttributeError)
    else Success(Assemble(a, day, startMinute, endDay, endMinute))
  }

  /** `add_event` with the end time of a duration used as a time of day. */
  function AddEvent(a: EventArgs, parseDate: string -> Option<int>,
                    parseTime: string -> Option<MinuteOfDay>): (r: Result<IcalEvent, Error>)
    ensures r.Success? ==> && parseDate(a.startDate).Some? && parseTime(a.startTime).Some?
                           && r.value.summary == a.title && r.value.description == a.description
                           && r.value.dtstart == DateTime(parseDate(a.startDate).value, parseTime(a.startTime).value)
                           && (r.value.dtend.Some? <==> a.endDate != "")
                           && (r.value.rrule.Some? <==> |a.repeat| > 0)
                           && (r.value.rrule.Some? ==> r.value.rrule.value == a.repeat)
    ensures r.Success? && a.endDate != "" && a.duration == "" ==>
              && parseDate(a.endDate).Some? && parseTime(a.endTime).Some?
              && r.value.dtend == Some(DateTime(parseDate(a.endDate).value, parseTime(a.endTime).value))
  {
    var day :- ParseWith(a.startDate, parseDate);
    var endDay :- ParseEndDate(a.endDate, parseDate);
    var startMinute :- ParseWith(a.startTime, parseTime);
    var endMinute :- EndTime(startMinute, a.duration, a.endTime, parseTime);
    Success(Assemble(a, day, startMinute, endDay, endMinute))
  }

  /** The event is built exactly when the start date, a given end date and the
      start time parse and the end time can be computed. */
  lemma AddEventSucceedsIff(a: EventArgs, parseDate: string -> Option<int>, parseTime: string -> Option<MinuteOfDay>)
    ensures AddEvent(a, parseDate, parseTime).Success?
            <==> && parseDate(a.startDate).Some?
                 && (a.endDate != "" ==> parseDate(a.endDate).Some?)
                 && parseTime(a.startTime).Some?
                 && EndTime(parseTime(a.startTime).value, a.duration, a.endTime, parseTime).Success?
  {
  }

  /** With an end date and a duration `H:M`, the event ends on the end date at
      the start time plus the duration. */
  lemma DurationGivesEnd(a: EventArgs, parseDate: string -> Option<int>, parseTime: string -> Option<MinuteOfDay>,
                         hours: string, minutes: string)
    requires IntSyntax(hours) && IntSyntax(minutes) && a.duration == hours + ":" + minutes
    requires a.endDate != "" && parseDate(a.startDate).Some? && parseDate(a.endDate).Some?
    requires parseTime(a.startTime).Some?
    ensures AddEvent(a, parseDate, parseTime).Success?
    ensures AddEvent(a, parseDate, parseTime).value.dtend
            == Some(DateTime(parseDate(a.endDate).value,
                             (parseTime(a.startTime).value + 60 * ParseInt(hours).value + ParseInt(minutes).value)
                             % MinutesPerDay))
  {
    DurationSetsEndTime(parseTime(a.startTime).value, hours, minutes, a.endTime, parseTime);
  }

  /** Without a duration, an event with an end date ends on that date at the
      parsed `--end-time`, and it is built exactly when every date and time
      parses; this is the only way the code as written produces a `dtend`. */
  lemma EndTimeGivesEnd(a: EventArgs, parseDate: string -> Option<int>, parseTime: string -> Option<MinuteOfDay>)
    requires a.endDate != "" && a.duration == ""
    ensures AddEventAsWritten(a, parseDate, parseTime).Success?
            <==> && parseDate(a.startDate).Some? && parseDate(a.endDate).Some?
                 && parseTime(a.startTime).Some? && parseTime(a.endTime).Some?
    ensures AddEventAsWritten(a, parseDate, parseTime).Success? ==>
              AddEventAsWritten(a, parseDate, parseTime).value.dtend
              == Some(DateTime(parseDate(a.endDate).value, parseTime(a.endTime).value))
  {
  }

  /** Without a duration, `--end-time` is parsed even when no end date uses
      it, so a malformed one stops the event. */
  lemma UnusedEndTimeIsStillParsed(a: EventArgs, parseDate: string -> Option<int>, parseTime: string -> Option<MinuteOfDay>)
    requires a.endDate == "" && a.duration == ""
    requires parseDate(a.startDate).Some? && parseTime(a.startTime).Some?
    requires parseTime(a.endTime).None?
    ensures AddEvent(a, parseDate, parseTime) == Failure(ValueError(a.endTime))
    ensures AddEventAsWritten(a, parseDate, parseTime) == Failure(ValueError(a.endTime))
  {
  }

  /** The crash: whenever the corrected event exists with both an end date
      and a duration, the code as written raises instead. */
  lemma DurationWithEndDateRaises(a: EventArgs, parseDate: string -> Option<int>, parseTime: string -> Option<MinuteOfDay>)
    requires a.endDate != "" && a.duration != ""
    requires AddEvent(a, parseDate, parseTime).Success?
    ensures AddEventAsWritten(a, parseDate, parseTime) == Failure(AttributeError)
  {
  }

  /** Everywhere else the two agree. */
  lemma AsWrittenAgreesOtherwise(a: EventArgs, parseDate: string -> Option<int>, parseTime: string -> Option<MinuteOfDay>)
    requires a.endDate == "" || a.duration == ""
    ensures AddEventAsWritten(a, parseDate, parseTime) == AddEvent(a, parseDate, parseTime)
  {
  }

  /** `main`: the `--rrule` string is converted as written and the event
      added by `add_event` as written; a malformed rule stops before any date
      is parsed. */
  function AddEventFromArguments(a: EventArgs, rrule: string, parseDate: string -> Option<int>,
                                 parseTime: string -> Option<MinuteOfDay>): (r: Result<IcalEvent, Error>)
    ensures ParseRRule(rrule).Failure? ==> r == Failure(ParseRRule(rrule).error)
    ensures r.Success? ==> && ParseRRule(rrule).Success?
                           && (r.value.rrule.Some? <==> |ParseRRule(rrule).value| > 0)
                           && (r.value.rrule.Some? ==> r.value.rrule.value == ParseRRule(rrule).value)
    ensures ParseRRule(rrule).Success? ==>
              r == AddEventAsWritten(a.(repeat := ParseRRule(rrule).value), parseDate, parseTime)
  {
    var repeat :- ParseRRule(rrule);
    AddEventAsWritten(a.(repeat := repeat), parseDate, parseTime)
  }

  /** As written, a rule given with its property name, as the default is,
      reaches the event with the property name inside its key: the default
      `RRULE:FREQ=DAILY` becomes `{"rrule:freq": "DAILY"}`. */
  lemma PropertyNameRunRepeats(a: EventArgs, key: string, value: string,
                               parseDate: string -> Option<int>, parseTime: string -> Option<MinuteOfDay>)
    requires PlainPair((key, value))
    requires AddEventFromArguments(a, PropertyName + key + "=" + value, parseDate, parseTime).Success?
    ensures AddEventFromArguments(a, PropertyName + key + "=" + value, parseDate, parseTime).value.rrule
            == Some(map[RRulePrefix + AsciiLower(key) := value])
  {
    PropertyNameKeptInKey(key, value);
  }

  /** The command as evidently intended: the property name is removed from
      the rule, and a duration with an end date gives a `dtend`. */
  function AddEventFromArgumentsIntended(a: EventArgs, rrule: string, parseDate: string -> Option<int>,
                                         parseTime: string -> Option<MinuteOfDay>): (r: Result<IcalEvent, Error>)
    ensures ParseRRuleStripped(rrule).Failure? ==> r == Failure(ParseRRuleStripped(rrule).error)
    ensures r.Success? ==> && ParseRRuleStripped(rrule).Success?
                           && (r.value.rrule.Some? <==> |ParseRRuleStripped(rrule).value| > 0)
                           && (r.value.rrule.Some? ==> r.value.rrule.value == ParseRRuleStripped(rrule).value)
  {
    var repeat :- ParseRRuleStripped(rrule);
    AddEvent(a.(repeat := repeat), parseDate, parseTime)
  }

  /** Intended, a rule given with its property name becomes the event's rule
      without it. */
  lemma PropertyNameRunRepeatsIntended(a: EventArgs, key: string, value: string,
                                       parseDate: string -> Option<int>, parseTime: string -> Option<MinuteOfDay>)
    requires PlainPair((key, value))
    requires AddEventFromArgumentsIntended(a, PropertyName + key + "=" + value, parseDate, parseTime).Success?
    ensures AddEventFromArgumentsIntended(a, PropertyName + key + "=" + value, parseDate, parseTime).value.rrule
            == Some(map[AsciiLower(key) := value])
  {
    PropertyNameStripped(key, value);
  }

  /** The default rule, as written: the key keeps the property name. */
  lemma DefaultRuleAsWritten()
    ensures ParseRRule("RRULE:FREQ=DAILY") == Success(map["rrule:freq" := "DAILY"])
  {
    assert "RRULE:FREQ=DAILY" == PropertyName + "FREQ" + "=" + "DAILY";
    PropertyNameKeptInKey("FREQ", "DAILY");
    assert RRulePrefix + AsciiLower("FREQ") == "rrule:freq";
  }

  /** The default rule, as intended: the frequency alone. */
  lemma DefaultRuleIntended()
    ensures ParseRRuleStripped("RRULE:FREQ=DAILY") == Success(map["freq" := "DAILY"])
  {
    assert "RRULE:FREQ=DAILY" == PropertyName + "FREQ" + "=" + "DAILY";
    PropertyNameStripped("FREQ", "DAILY");
    assert AsciiLower("FREQ") == "freq";
  }
}

=== FILE: backends.dfy ===
/** `Backend.act`: every event's description is split, prepared and given its
    headers by the selected backend, in event order, and the whole list of
    actions is then handed to the backend's action once. */
module Backends {
  import opened Wrappers
  import opened Errors
  import opened Config
  import opened Text
  import opened MessageSplit
  import EmailMessage
  import SendEmail
  import OtrsApi

  /** One occurrence from the recurrence expansion. Timestamps are wall-clock
      seconds; summary and description may be missing. */
  datatype Event = Event(summary: Option<string>, description: Option<string>, start: int, end: int)

  /** The backends, as a closed set of variants. `Base` is the interface
      itself, which prepares the body text and has no action. */
  datatype Backend =
    | Base
    | ListStdout
    | SendEmail(mail: Section, headers: Option<HeaderPolicy>)
    | OtrsApi(cfg: OtrsApi.OtrsConfig)

  /** What the environment provides: the header store's key normalisation,
      the rendering of a timestamp, and the answers of the mail and ticket
      servers (see `SendEmail.Perform` and `OtrsApi.Perform`). */
  datatype Env = Env(keyForm: KeyForm, show: int -> string, smtpOk: nat -> bool, sessionOk: nat -> bool)

  /** What one run of `act` does, in order. */
  datatype Effect =
    | Stdout(text: string)
    | Mail(mail: SendEmail.MailEffect)
    | Otrs(otrs: OtrsApi.OtrsEffect)

  /** `str(event.get("description", ""))`. */
  function Description(e: Event): string {
    e.description.GetOr("")
  }

  /** `str(x)` of an optional event field: Python prints a missing one as "None". */
  function Shown(field: Option<string>): string {
    field.GetOr("None")
  }

  const Rule: string := "-------------------------"

  /** `ListStdout._prepare_event`: summary, raw description, start and end,
      and a rule, one per line; the split headers and text are not used. */
  function ListRecord(e: Event, show: int -> string): string {
    Join([Shown(e.summary), Shown(e.description), show(e.start), show(e.end), Rule], "\n")
  }

  /** A record whose parts are single lines reads back as those five lines. */
  lemma ListRecordLines(e: Event, show: int -> string)
    requires '\n' !in Shown(e.summary) && '\n' !in Shown(e.description)
    requires '\n' !in show(e.start) && '\n' !in show(e.end)
    ensures SplitOn(ListRecord(e, show), '\n')
            == [Shown(e.summary), Shown(e.description), show(e.start), show(e.end), Rule]
  {
    var parts := [Shown(e.summary), Shown(e.description), show(e.start), show(e.end), Rule];
    assert forall i :: 0 <= i < |parts| ==> '\n' !in parts[i];
    SplitJoin(parts, '\n');
  }

  /** The description splits: its header lines can be read. */
  predicate Splits(e: Event, keyForm: KeyForm) {
    SplitMessage(Description(e), keyForm).Success?
  }

  predicate AllSplit(events: seq<Event>, keyForm: KeyForm) {
    forall i :: 0 <= i < |events| ==> Splits(events[i], keyForm)
  }

  /** One event through split, prepare and apply_headers for the base
      backend: the body text, unchanged by the identity apply_headers. */
  function BaseStep(e: Event, keyForm: KeyForm): Result<string, Error> {
    var split :- SplitMessage(Description(e), keyForm);
    Success(split.body)
  }

  /** The list backend's step: the description is split (and may raise)
      although the record does not use the result. */
  function ListStep(e: Event, keyForm: KeyForm, show: int -> string): Result<string, Error> {
    var _ :- SplitMessage(Description(e), keyForm);
    Success(ListRecord(e, show))
  }

  /** The mail backend's step, as written: the message, then the
      allow-listed headers, which the configuration must have
      (`config["headers"]`). */
  function MailStep(mail: Section, policy: Option<HeaderPolicy>, e: Event, keyForm: KeyForm): Result<EmailMessage.Message, Error> {
    var split :- SplitMessage(Description(e), keyForm);
    var msg :- SendEmail.Prepare(mail, e.summary, split.body);
    if policy.None? then Failure(KeyError("headers"))
    else SendEmail.ApplyHeadersAsWritten(msg, policy.value, split.headers, keyForm)
  }

  /** The ticket backend's step, as written, with the footer read from the
      top level of the configuration. */
  function OtrsStep(cfg: OtrsApi.OtrsConfig, e: Event, keyForm: KeyForm): Result<OtrsApi.Request, Error> {
    var split :- SplitMessage(Description(e), keyForm);
    OtrsApi.PrepareAsWritten(cfg, split.headers, keyForm, split.body, e.summary)
  }

  /** The per-event steps as values, so that `act` and the lemmas about it
      name the same step. */
  function BaseSteps(keyForm: KeyForm): Event -> Result<string, Error> {
    e => BaseStep(e, keyForm)
  }

  function ListSteps(keyForm: KeyForm, show: int -> string): Event -> Result<string, Error> {
    e => ListStep(e, keyForm, show)
  }

  function MailSteps(mail: Section, policy: Option<HeaderPolicy>, keyForm: KeyForm): Event -> Result<EmailMessage.Message, Error> {
    e => MailStep(mail, policy, e, keyForm)
  }

  function OtrsSteps(cfg: OtrsApi.OtrsConfig, keyForm: KeyForm): Event -> Result<OtrsApi.Request, Error> {
    e => OtrsStep(cfg, e, keyForm)
  }

  /** The loop of `act`: one action per event, in event order. The first
      event whose preparation raises ends the loop with that error. */
  function BuildAll<A>(events: seq<Event>, step: Event -> Result<A, Error>): (r: Result<seq<A>, Error>)
    ensures r.Success? <==> forall i :: 0 <= i < |events| ==> step(events[i]).Success?
    ensures r.Success? ==> |r.value| == |events|
                           && forall i :: 0 <= i < |events| ==> step(events[i]) == Success(r.value[i])
    ensures r.Failure? ==> exists k :: 0 <= k < |events| && step(events[k]) == Failure(r.error)
                                       && forall i :: 0 <= i < k ==> step(events[i]).Success?
  {
    if |events| == 0 then Success([])
    else
      match step(events[0])
      case Failure(err) => Failure(err)
      case Success(a) =>
        var rest := BuildAll(events[1..], step);
        assert forall i :: 1 <= i < |events| ==> events[1..][i - 1] == events[i];
        if rest.Failure? then
          var k :| 0 <= k < |events[1..]| && step(events[1..][k]) == Failure(rest.error)
                   && forall i :: 0 <= i < k ==> step(events[1..][i]).Success?;
          assert step(events[k + 1]) == Failure(rest.error);
          Failure(rest.error)
        else Success([a] + rest.value)
  }

  /** The mail backend's outcome as effects of `act`; the returned flag is
      dropped. */
  function LiftMail(o: Outcome<SendEmail.MailEffect>): (r: Outcome<Effect>)
    ensures |r.effects| == |o.effects|
    ensures forall i :: 0 <= i < |o.effects| ==> r.effects[i] == Mail(o.effects[i])
    ensures r.status == (if o.status.Raised? then o.status else Returned(None))
  {
    Outcome(seq(|o.effects|, i requires 0 <= i < |o.effects| => Mail(o.effects[i])),
            if o.status.Raised? then o.status else Returned(None))
  }

  /** The ticket backend's outcome as effects of `act`; the returned flag is
      dropped. */
  function LiftOtrs(o: Outcome<OtrsApi.OtrsEffect>): (r: Outcome<Effect>)
    ensures |r.effects| == |o.effects|
    ensures forall i :: 0 <= i < |o.effects| ==> r.effects[i] == Otrs(o.effects[i])
    ensures r.status == (if o.status.Raised? then o.status else Returned(None))
  {
    Outcome(seq(|o.effects|, i requires 0 <= i < |o.effects| => Otrs(o.effects[i])),
            if o.status.Raised? then o.status else Returned(None))
  }

  function PrintAll(texts: seq<string>): (r: seq<Effect>)
    ensures |r| == |texts|
    ensures forall i :: 0 <= i < |texts| ==> r[i] == Stdout(texts[i])
  {
    seq(|texts|, i requires 0 <= i < |texts| => Stdout(texts[i]))
  }

  /** `act` for the base backend: the texts are prepared and then the
      missing action raises. */
  function ActBase(events: seq<Event>, env: Env): Outcome<Effect> {
    var r := BuildAll(events, BaseSteps(env.keyForm));
    if r.Failure? then Outcome([], Raised(r.error)) else Outcome([], Raised(NotImplemented))
  }

  function ActList(events: seq<Event>, env: Env): Outcome<Effect> {
    var r := BuildAll(events, ListSteps(env.keyForm, env.show));
    if r.Failure? then Outcome([], Raised(r.error)) else Outcome(PrintAll(r.value), Returned(None))
  }

  function ActMail(mail: Section, policy: Option<HeaderPolicy>, events: seq<Event>, dryRun: bool, env: Env): Outcome<Effect> {
    var r := BuildAll(events, MailSteps(mail, policy, env.keyForm));
    if r.Failure? then Outcome([], Raised(r.error))
    else LiftMail(SendEmail.Perform(mail, r.value, dryRun, env.smtpOk))
  }

  function ActOtrs(cfg: OtrsApi.OtrsConfig, events: seq<Event>, dryRun: bool, env: Env): Outcome<Effect> {
    var r := BuildAll(events, OtrsSteps(cfg, env.keyForm));
    if r.Failure? then Outcome([], Raised(r.error))
    else LiftOtrs(OtrsApi.Perform(cfg.otrs, r.value, dryRun, env.sessionOk))
  }

  /** `act`. An error while preparing an event propagates before the backend
      action runs. The value the action returns (the ticket backend's success
      flag) is dropped: `act` itself returns nothing. */
  function Act(b: Backend, events: seq<Event>, dryRun: bool, env: Env): Outcome<Effect> {
    match b
    case Base => ActBase(events, env)
    case ListStdout => ActList(events, env)
    case SendEmail(mail, policy) => ActMail(mail, policy, events, dryRun, env)
    case OtrsApi(cfg) => ActOtrs(cfg, events, dryRun, env)
  }

  /** The list backend prints one record per event, in event order. */
  lemma ListPrintsOneRecordPerEvent(events: seq<Event>, dryRun: bool, env: Env)
    requires AllSplit(events, env.keyForm)
    ensures var o := Act(ListStdout, events, dryRun, env);
            && o.status == Returned(None)
            && |o.effects| == |events|
            && forall i :: 0 <= i < |events| ==> o.effects[i] == Stdout(ListRecord(events[i], env.show))
  {
    var step := ListSteps(env.keyForm, env.show);
    forall i | 0 <= i < |events|
      ensures step(events[i]) == Success(ListRecord(events[i], env.show))
    {
      assert Splits(events[i], env.keyForm);
    }
  }

  /** The base backend prepares every event and then raises: it has no
      action of its own. */
  lemma BaseHasNoAction(events: seq<Event>, dryRun: bool, env: Env)
    requires AllSplit(events, env.keyForm)
    ensures Act(Base, events, dryRun, env) == Outcome([], Raised(NotImplemented))
  {
    var step := BaseSteps(env.keyForm);
    forall i | 0 <= i < |events|
      ensures step(events[i]).Success?
    {
      assert Splits(events[i], env.keyForm);
    }
  }

  /** A description whose headers cannot be read stops every backend before
      its action: nothing is printed, sent or created, and `act` raises. */
  lemma UnreadableHeadersStopEveryBackend(b: Backend, events: seq<Event>, dryRun: bool, env: Env, k: int)
    requires 0 <= k < |events| && !Splits(events[k], env.keyForm)
    ensures Act(b, events, dryRun, env).effects == []
    ensures Act(b, events, dryRun, env).status.Raised?
  {
    match b
    case Base =>
      assert !BaseSteps(env.keyForm)(events[k]).Success?;
    case ListStdout =>
      assert !ListSteps(env.keyForm, env.show)(events[k]).Success?;
    case SendEmail(mail, policy) =>
      assert !MailSteps(mail, policy, env.keyForm)(events[k]).Success?;
    case OtrsApi(cfg) =>
      assert !OtrsSteps(cfg, env.keyForm)(events[k]).Success?;
  }

  /** The list backend raises the error of the first description whose
      headers cannot be read: a repeated or an empty header key. */
  lemma ListRaisesFirstSplitError(events: seq<Event>, dryRun: bool, env: Env, k: int)
    requires 0 <= k < |events| && !Splits(events[k], env.keyForm)
    requires forall i :: 0 <= i < k ==> Splits(events[i], env.keyForm)
    ensures Act(ListStdout, events, dryRun, env)
            == Outcome([], Raised(SplitMessage(Description(events[k]), env.keyForm).error))
    ensures Act(ListStdout, events, dryRun, env).status.error.DuplicateOptionError?
            || Act(ListStdout, events, dryRun, env).status.error == ConfigParsingError
  {
    var step := ListSteps(env.keyForm, env.show);
    assert step(events[k]) == Failure(SplitMessage(Description(events[k]), env.keyForm).error);
    forall i | 0 <= i < k
      ensures step(events[i]).Success?
    {
      assert Splits(events[i], env.keyForm);
    }
    FirstFailureIsRaised(events, step, k);
  }

  /** The loop of `act` fails with the error of the first event whose step
      fails. */
  lemma FirstFailureIsRaised<A>(events: seq<Event>, step: Event -> Result<A, Error>, k: int)
    requires 0 <= k < |events| && step(events[k]).Failure?
    requires forall i :: 0 <= i < k ==> step(events[i]).Success?
    ensures BuildAll(events, step) == Failure(step(events[k]).error)
  {
    var r := BuildAll(events, step);
    var j :| 0 <= j < |events| && step(events[j]) == Failure(r.error)
             && forall i :: 0 <= i < j ==> step(events[i]).Success?;
    if j < k {
      assert false;
    } else if j > k {
      assert false;
    }
  }

  /** The header store of a description that splits. */
  function Store(e: Event, keyForm: KeyForm): map<string, string>
    requires Splits(e, keyForm)
  {
    SplitMessage(Description(e), keyForm).value.headers
  }

  /** The body text of a description that splits. */
  function Body(e: Event, keyForm: KeyForm): string
    requires Splits(e, keyForm)
  {
    SplitMessage(Description(e), keyForm).value.body
  }

  /** When the mail step builds an event's message: the event has a summary,
      no value the step assigns to a header spans lines, and no allow-listed
      envelope header (Subject, From, To) is empty, since the code keeps an
      empty one and then cannot set it again. */
  predicate Mailable(mail: Section, policy: HeaderPolicy, e: Event, keyForm: KeyForm)
    requires "sender" in mail && "recipient" in mail && Splits(e, keyForm)
  {
    && e.summary.Some?
    && !MultiLine(e.summary.value) && !MultiLine(mail["sender"]) && !MultiLine(mail["recipient"])
    && SendEmail.OverlayFits(policy, Store(e, keyForm), keyForm, e.summary.value, mail["sender"], mail["recipient"])
  }

  /** With the mail settings and an allow-list that names each header once,
      the mail step builds the message exactly when the event is mailable.
      A missing summary raises KeyError; every other failure is the email
      library's ValueError. */
  lemma MailStepSucceedsIff(mail: Section, policy: Option<HeaderPolicy>, e: Event, keyForm: KeyForm)
    requires Splits(e, keyForm)
    requires "sender" in mail && "recipient" in mail && policy.Some? && DistinctNames(policy.value)
    ensures MailStep(mail, policy, e, keyForm).Success? <==> Mailable(mail, policy.value, e, keyForm)
    ensures e.summary.None? ==> MailStep(mail, policy, e, keyForm) == Failure(KeyError("summary"))
    ensures e.summary.Some? && MailStep(mail, policy, e, keyForm).Failure? ==>
              MailStep(mail, policy, e, keyForm).error.ValueError?
  {
    var prepared := SendEmail.Prepare(mail, e.summary, Body(e, keyForm));
    if prepared.Failure? {
      MailStepWithoutEnvelope(mail, policy, e, keyForm);
    } else {
      MailStepWithEnvelope(mail, policy, e, keyForm);
    }
  }

  /** With the envelope built, the mail step succeeds exactly when the
      allow-list fits it. */
  lemma MailStepWithEnvelope(mail: Section, policy: Option<HeaderPolicy>, e: Event, keyForm: KeyForm)
    requires Splits(e, keyForm)
    requires "sender" in mail && "recipient" in mail && policy.Some? && DistinctNames(policy.value)
    requires SendEmail.Prepare(mail, e.summary, Body(e, keyForm)).Success?
    ensures MailStep(mail, policy, e, keyForm).Success? <==> Mailable(mail, policy.value, e, keyForm)
    ensures MailStep(mail, policy, e, keyForm).Failure? ==> MailStep(mail, policy, e, keyForm).error.ValueError?
  {
    MailStepIsOverlay(mail, policy, e, keyForm);
    SendEmail.EnvelopeOverlaySucceedsIff(Body(e, keyForm), e.summary.value, mail["sender"], mail["recipient"],
                                         policy.value, Store(e, keyForm), keyForm);
  }

  /** Without an envelope, the mail step raises the envelope's error. */
  lemma MailStepWithoutEnvelope(mail: Section, policy: Option<HeaderPolicy>, e: Event, keyForm: KeyForm)
    requires Splits(e, keyForm)
    requires "sender" in mail && "recipient" in mail
    requires SendEmail.Prepare(mail, e.summary, Body(e, keyForm)).Failure?
    ensures MailStep(mail, policy, e, keyForm) == Failure(SendEmail.Prepare(mail, e.summary, Body(e, keyForm)).error)
    ensures !Mailable(mail, policy.GetOr([]), e, keyForm)
  {
  }

  /** Once the envelope is built, the mail step is the as-written overlay on it. */
  lemma MailStepIsOverlay(mail: Section, policy: Option<HeaderPolicy>, e: Event, keyForm: KeyForm)
    requires Splits(e, keyForm)
    requires "sender" in mail && "recipient" in mail && policy.Some?
    requires e.summary.Some? && SendEmail.Prepare(mail, e.summary, Body(e, keyForm)).Success?
    ensures MailStep(mail, policy, e, keyForm)
            == SendEmail.ApplyHeadersAsWritten(SendEmail.Envelope(Body(e, keyForm), e.summary.value, mail["sender"], mail["recipient"]),
                                               policy.value, Store(e, keyForm), keyForm)
  {
  }

  /** A ticket step fails exactly for an event without a summary, with
      KeyError, or for one whose ticket would lack a title, queue, state,
      priority or customer user, with ArgumentMissingError. */
  lemma OtrsStepFailsIff(cfg: OtrsApi.OtrsConfig, e: Event, keyForm: KeyForm)
    requires Splits(e, keyForm)
    ensures OtrsStep(cfg, e, keyForm).Failure?
            <==> e.summary.None? || !OtrsApi.Complete(OtrsApi.Options(cfg, e.summary.value, Store(e, keyForm), keyForm))
    ensures e.summary.None? ==> OtrsStep(cfg, e, keyForm) == Failure(KeyError("summary"))
    ensures e.summary.Some? && OtrsStep(cfg, e, keyForm).Failure? ==> OtrsStep(cfg, e, keyForm).error.ArgumentMissingError?
  {
  }

  /** An event without a summary, reached by the loop, makes the mail and
      ticket backends raise KeyError before their action runs: nothing is
      sent or created. */
  lemma MissingSummaryStopsBeforeAction(b: Backend, events: seq<Event>, dryRun: bool, env: Env, k: int)
    requires b.SendEmail? || b.OtrsApi?
    requires b.SendEmail? ==> "sender" in b.mail && "recipient" in b.mail
    requires 0 <= k < |events| && events[k].summary.None? && Splits(events[k], env.keyForm)
    requires b.SendEmail? ==> forall i :: 0 <= i < k ==> MailStep(b.mail, b.headers, events[i], env.keyForm).Success?
    requires b.OtrsApi? ==> forall i :: 0 <= i < k ==> OtrsStep(b.cfg, events[i], env.keyForm).Success?
    ensures Act(b, events, dryRun, env) == Outcome([], Raised(KeyError("summary")))
  {
    if b.SendEmail? {
      var step := MailSteps(b.mail, b.headers, env.keyForm);
      assert step(events[k]) == Failure(KeyError("summary"));
      FirstFailureIsRaised(events, step, k);
    } else {
      var step := OtrsSteps(b.cfg, env.keyForm);
      assert step(events[k]) == Failure(KeyError("summary"));
      FirstFailureIsRaised(events, step, k);
    }
  }

  /** A mail run that is not a dry run and meets no server error sends one
      message per event, in event order: message `i` is event `i`'s
      description body under Subject, From and To, with the allow-listed
      headers laid over it as the code does. */
  lemma MailSendsOneMessagePerEvent(mail: Section, policy: Option<HeaderPolicy>, events: seq<Event>, env: Env)
    requires "sender" in mail && "recipient" in mail && "server" in mail && "port" in mail && "password" in mail
    requires forall i :: 0 <= i < |events| ==> MailStep(mail, policy, events[i], env.keyForm).Success?
    requires forall step: nat :: step < 2 + |events| ==> env.smtpOk(step)
    ensures var o := Act(SendEmail(mail, policy), events, false, env);
            && o.status == Returned(None)
            && |o.effects| == |events| + 3
            && forall i :: 0 <= i < |events| ==>
                 o.effects[i + 2] == Mail(SendEmail.Send(MailStep(mail, policy, events[i], env.keyForm).value))
  {
    var msgs := BuildAll(events, MailSteps(mail, policy, env.keyForm)).value;
    MailActPerformsMessages(mail, policy, events, false, env);
    BatchSentInFull(mail, msgs, env.smtpOk);
    var p := SendEmail.Perform(mail, msgs, false, env.smtpOk);
    var o := Act(SendEmail(mail, policy), events, false, env);
    forall i | 0 <= i < |events|
      ensures o.effects[i + 2] == Mail(SendEmail.Send(MailStep(mail, policy, events[i], env.keyForm).value))
    {
      assert o.effects[i + 2] == Mail(p.effects[i + 2]);
      assert MailSteps(mail, policy, env.keyForm)(events[i]) == Success(msgs[i]);
    }
  }

  /** Once every message is built, `act` is the mail action on them. */
  lemma MailActPerformsMessages(mail: Section, policy: Option<HeaderPolicy>, events: seq<Event>, dryRun: bool, env: Env)
    requires BuildAll(events, MailSteps(mail, policy, env.keyForm)).Success?
    ensures Act(SendEmail(mail, policy), events, dryRun, env)
            == LiftMail(SendEmail.Perform(mail, BuildAll(events, MailSteps(mail, policy, env.keyForm)).value, dryRun, env.smtpOk))
  {
  }

  /** A batch the server accepts in full: connect, login, the messages in
      order, quit. */
  lemma BatchSentInFull(mail: Section, msgs: seq<EmailMessage.Message>, smtpOk: nat -> bool)
    requires "sender" in mail && "recipient" in mail && "server" in mail && "port" in mail && "password" in mail
    requires forall step: nat :: step < 2 + |msgs| ==> smtpOk(step)
    ensures var p := SendEmail.Perform(mail, msgs, false, smtpOk);
            && p.status == Returned(None)
            && |p.effects| == |msgs| + 3
            && forall i :: 0 <= i < |msgs| ==> p.effects[i + 2] == SendEmail.Send(msgs[i])
  {
    forall k | 0 <= k < |msgs|
      ensures smtpOk(SendEmail.SendStep(k))
    {
      assert SendEmail.SendStep(k) < 2 + |msgs|;
    }
    assert smtpOk(0) && smtpOk(1);
    SendEmail.SessionSendsInOrderAndCloses(mail, msgs, smtpOk);
    assert msgs[..|msgs|] == msgs;
  }

  /** A dry run of the mail backend only prints. */
  lemma MailDryRunOnlyPrints(mail: Section, policy: Option<HeaderPolicy>, events: seq<Event>, env: Env)
    ensures var o := Act(SendEmail(mail, policy), events, true, env);
            forall i :: 0 <= i < |o.effects| ==> o.effects[i].Mail? && o.effects[i].mail.Print?
  {
    var r := BuildAll(events, MailSteps(mail, policy, env.keyForm));
    var o := Act(SendEmail(mail, policy), events, true, env);
    if r.Failure? {
      assert o.effects == [];
    } else {
      var p := SendEmail.Perform(mail, r.value, true, env.smtpOk);
      if "sender" in mail && "recipient" in mail {
        SendEmail.DryRunOnlyPrints(mail, r.value, env.smtpOk);
      } else {
        assert p.effects == [];
      }
    }
  }

  /** A dry run of the ticket backend only logs, and reports success. */
  lemma OtrsDryRunOnlyLogs(cfg: OtrsApi.OtrsConfig, events: seq<Event>, env: Env)
    ensures var o := Act(OtrsApi(cfg), events, true, env);
            forall i :: 0 <= i < |o.effects| ==> o.effects[i].Otrs? && o.effects[i].otrs.LogRequest?
  {
    var r := BuildAll(events, OtrsSteps(cfg, env.keyForm));
    var o := Act(OtrsApi(cfg), events, true, env);
    if r.Failure? {
      assert o.effects == [];
    } else {
      var p := OtrsApi.Perform(cfg.otrs, r.value, true, env.sessionOk);
      OtrsApi.DryRunOnlyLogs(cfg.otrs, r.value, 0, env.sessionOk);
      assert r.value[0..] == r.value;
      assert o == LiftOtrs(p);
      forall i | 0 <= i < |o.effects|
        ensures o.effects[i].Otrs? && o.effects[i].otrs.LogRequest?
      {
        assert o.effects[i] == Otrs(p.effects[i]);
      }
    }
  }

  /** A dry run opens no connection and creates no ticket, whatever the
      backend. */
  lemma DryRunTouchesNoServer(b: Backend, events: seq<Event>, env: Env, i: int)
    requires 0 <= i < |Act(b, events, true, env).effects|
    ensures var eff := Act(b, events, true, env).effects[i];
            && (eff.Mail? ==> eff.mail.Print?)
            && (eff.Otrs? ==> eff.otrs.LogRequest?)
  {
    match b
    case SendEmail(mail, policy) => MailDryRunOnlyPrints(mail, policy, events, env);
    case OtrsApi(cfg) => OtrsDryRunOnlyLogs(cfg, events, env);
    case _ =>
  }

  /** A ticket session that fails to open ends the batch early, yet `act`
      still returns normally: the failure flag does not reach the caller. */
  lemma FailedSessionIsNotReported(cfg: OtrsApi.OtrsConfig, events: seq<Event>, env: Env)
    requires "server" in cfg.otrs && "username" in cfg.otrs && "password" in cfg.otrs
    requires forall i :: 0 <= i < |events| ==> OtrsStep(cfg, events[i], env.keyForm).Success?
    requires |events| > 0 && !env.sessionOk(0)
    ensures Act(OtrsApi(cfg), events, false, env)
            == Outcome([Otrs(OtrsApi.NewClient(cfg.otrs["server"], cfg.otrs["username"], cfg.otrs["password"])),
                        Otrs(OtrsApi.SessionCreate)], Returned(None))
  {
    assert BuildAll(events, OtrsSteps(cfg, env.keyForm)).Success?;
    var reqs := BuildAll(events, OtrsSteps(cfg, env.keyForm)).value;
    OtrsActPerformsRequests(cfg, events, false, env);
    OtrsApi.FirstSessionFails(cfg.otrs, reqs, env.sessionOk);
    LiftOtrsPair(OtrsApi.NewClient(cfg.otrs["server"], cfg.otrs["username"], cfg.otrs["password"]),
                 OtrsApi.SessionCreate, Some(false));
  }

  /** Once every request is built, `act` is the ticket action on them. */
  lemma OtrsActPerformsRequests(cfg: OtrsApi.OtrsConfig, events: seq<Event>, dryRun: bool, env: Env)
    requires BuildAll(events, OtrsSteps(cfg, env.keyForm)).Success?
    ensures Act(OtrsApi(cfg), events, dryRun, env)
            == LiftOtrs(OtrsApi.Perform(cfg.otrs, BuildAll(events, OtrsSteps(cfg, env.keyForm)).value, dryRun, env.sessionOk))
  {
  }

  lemma LiftOtrsPair(a: OtrsApi.OtrsEffect, b: OtrsApi.OtrsEffect, flag: Option<bool>)
    ensures LiftOtrs(Outcome([a, b], Returned(flag))) == Outcome([Otrs(a), Otrs(b)], Returned(None))
  {
    var o := LiftOtrs(Outcome([a, b], Returned(flag)));
    assert o.effects == [Otrs(a), Otrs(b)];
  }

}

=== FILE: config.dfy ===
/** The errors the modelled code raises, as values, and the outcome of an
    action: the effects it had, in order, and how it ended. */
module Errors {
  import opened Wrappers

  datatype Error =
    | KeyError(key: string)       // a missing mapping key (configuration or event field)
    | NotImplemented              // the base backend has no action
    | ParseError(input: string)   // a date or time string the parser rejects
    | ValueError(input: string)   // `int(...)`, tuple unpacking or a header assignment rejected its input
    | IndexError                  // a list index past the end
    | AttributeError              // an attribute the object does not have
    | SmtpError(step: nat)        // the mail server refused step `step` of a session
    | DuplicateOptionError(option: string)  // configparser met a key twice in one section
    | ConfigParsingError          // configparser's ParsingError: a line it cannot read (an empty key)
    | ArgumentMissingError(argument: string)  // a required ticket argument is empty

  /** How a call ended: it returned (with the flag it returned, if any) or it
      raised an error. */
  datatype Status = Returned(flag: Option<bool>) | Raised(error: Error)

  datatype Outcome<E> = Outcome(effects: seq<E>, status: Status)
}

/** The read-only configuration the backends see: named sections of string
    values and the allow-list of headers with their defaults. */
module Config {
  import opened Wrappers
  import opened Errors
  import opened Text

  /** One configuration section, e.g. `[mail]` or `[otrs]`. */
  type Section = map<string, string>

  /** `section[key]`: the value, or KeyError when the key is missing. */
  function Require(section: Section, key: string): (r: Result<string, Error>)
    ensures r.Success? <==> key in section
    ensures r.Success? ==> r.value == section[key]
    ensures r.Failure? ==> r.error == KeyError(key)
  {
    if key in section then Success(section[key]) else Failure(KeyError(key))
  }

  /** `section.get(key, default)` on a mapping that looks `key` up as given;
      a caller that reads a configparser section passes the key through the
      section's normalisation first. */
  function GetOr(section: Section, key: string, default: string): string {
    if key in section then section[key] else default
  }

  /** One entry of the `[headers]` section: a header that events may set, and
      the value used when an event does not set it. */
  datatype ConfigHeader = ConfigHeader(name: string, default: string)

  /** The `[headers]` section, in the order its keys are listed. */
  type HeaderPolicy = seq<ConfigHeader>

  /** Header names compare without regard to ASCII case. */
  predicate SameName(a: string, b: string) {
    AsciiLower(a) == AsciiLower(b)
  }

  /** The allow-list names each header once. A `[headers]` section read by
      configparser has this property, since its keys are lower-cased. */
  predicate DistinctNames(policy: HeaderPolicy) {
    forall i, j :: 0 <= i < j < |policy| ==> !SameName(policy[i].name, policy[j].name)
  }

  function Names(policy: HeaderPolicy): (names: set<string>)
    ensures forall i :: 0 <= i < |policy| ==> policy[i].name in names
    ensures forall n :: n in names ==> exists i :: 0 <= i < |policy| && policy[i].name == n
  {
    set i | 0 <= i < |policy| :: policy[i].name
  }

  lemma NamesOfPrefix(policy: HeaderPolicy)
    requires |policy| > 0
    ensures Names(policy) == Names(policy[..|policy| - 1]) + {policy[|policy| - 1].name}
  {
    var init := policy[..|policy| - 1];
    forall n | n in Names(policy)
      ensures n in Names(init) + {policy[|policy| - 1].name}
    {
      var i :| 0 <= i < |policy| && policy[i].name == n;
      if i < |init| {
        assert init[i] == policy[i];
      }
    }
    forall n | n in Names(init)
      ensures n in Names(policy)
    {
      var i :| 0 <= i < |init| && init[i].name == n;
      assert policy[i] == init[i];
    }
  }
}

=== FILE: email_message.dfy ===
/** The part of an email message the backend touches: an ordered list of header
    fields, whose names compare without regard to ASCII case, and the body. */
module EmailMessage {
  import opened Wrappers
  import opened Config

  datatype Field = Field(name: string, value: string)

  datatype Message = Message(fields: seq<Field>, content: string)

  /** The fields that carry header `name`, in message order. */
  function Named(fields: seq<Field>, name: string): (r: seq<Field>)
    ensures |r| <= |fields|
    ensures forall i :: 0 <= i < |r| ==> r[i] in fields && SameName(r[i].name, name)
    ensures forall f :: f in fields && SameName(f.name, name) ==> f in r
  {
    if |fields| == 0 then []
    else (if SameName(fields[0].name, name) then [fields[0]] else []) + Named(fields[1..], name)
  }

  lemma {:induction false} NamedAppend(fields: seq<Field>, f: Field, name: string)
    ensures Named(fields + [f], name) == Named(fields, name) + (if SameName(f.name, name) then [f] else [])
  {
    var last := if SameName(f.name, name) then [f] else [];
    if |fields| == 0 {
      assert fields + [f] == [f];
    } else {
      var tail := fields[1..];
      var first := if SameName(fields[0].name, name) then [fields[0]] else [];
      assert (fields + [f])[1..] == tail + [f];
      calc {
        Named(fields + [f], name);
        first + Named(tail + [f], name);
        { NamedAppend(tail, f, name); }
        first + (Named(tail, name) + last);
        (first + Named(tail, name)) + last;
        Named(fields, name) + last;
      }
    }
  }

  /** The positions of the fields that carry header `name`, in increasing
      order: an independent account of which fields `Named` picks. */
  function NamedIndices(fields: seq<Field>, name: string): (idx: seq<nat>)
    ensures forall k :: 0 <= k < |idx| ==> idx[k] < |fields| && SameName(fields[idx[k]].name, name)
    ensures forall k, l :: 0 <= k < l < |idx| ==> idx[k] < idx[l]
    ensures forall i :: 0 <= i < |fields| && SameName(fields[i].name, name) ==> i in idx
    decreases |fields|
  {
    if |fields| == 0 then []
    else
      var n := |fields| - 1;
      var init := fields[..n];
      assert forall i :: 0 <= i < n ==> init[i] == fields[i];
      NamedIndices(init, name) + (if SameName(fields[n].name, name) then [n] else [])
  }

  /** `Named` lists exactly the fields at those positions, in message order,
      each as often as it occurs. */
  lemma {:induction false} NamedInOrder(fields: seq<Field>, name: string)
    ensures var idx := NamedIndices(fields, name);
            && |Named(fields, name)| == |idx|
            && forall k :: 0 <= k < |idx| ==> Named(fields, name)[k] == fields[idx[k]]
    decreases |fields|
  {
    if |fields| > 0 {
      var n := |fields| - 1;
      var init := fields[..n];
      assert fields == init + [fields[n]];
      NamedInOrder(init, name);
      NamedAppend(init, fields[n], name);
      assert forall i :: 0 <= i < n ==> init[i] == fields[i];
    }
  }

  /** Names that compare equal pick the same fields. */
  lemma {:induction false} NamedSameName(fields: seq<Field>, a: string, b: string)
    requires SameName(a, b)
    ensures Named(fields, a) == Named(fields, b)
    decreases |fields|
  {
    if |fields| > 0 {
      NamedSameName(fields[1..], a, b);
    }
  }

  /** `msg[name]`: the value of the first field with that name, if any. */
  function Get(m: Message, name: string): (r: Option<string>)
    ensures r.None? <==> Named(m.fields, name) == []
    ensures r.Some? ==> r.value == Named(m.fields, name)[0].value
  {
    var named := Named(m.fields, name);
    if |named| == 0 then None else Some(named[0].value)
  }

  /** The fields whose name differs from `name`. */
  function Without(fields: seq<Field>, name: string): (r: seq<Field>)
    ensures Named(r, name) == []
    ensures forall o :: !SameName(o, name) ==> Named(r, o) == Named(fields, o)
  {
    if |fields| == 0 then []
    else
      var rest := Without(fields[1..], name);
      if SameName(fields[0].name, name) then rest
      else
        assert ([fields[0]] + rest)[1..] == rest;
        [fields[0]] + rest
  }

  /** `del msg[name]`: every field with that name is removed. */
  function Delete(m: Message, name: string): (r: Message)
    ensures r.content == m.content
    ensures Named(r.fields, name) == []
    ensures forall o :: !SameName(o, name) ==> Named(r.fields, o) == Named(m.fields, o)
  {
    Message(Without(m.fields, name), m.content)
  }

  /** `msg[name] = value`: a field is added after the existing ones, which stay. */
  function Append(m: Message, name: string, value: string): (r: Message)
    ensures r.content == m.content
    ensures |r.fields| == |m.fields| + 1
    ensures Named(r.fields, name) == Named(m.fields, name) + [Field(name, value)]
    ensures forall o :: !SameName(o, name) ==> Named(r.fields, o) == Named(m.fields, o)
  {
    NamedAppend(m.fields, Field(name, value), name);
    forall o | !SameName(o, name)
      ensures Named(m.fields + [Field(name, value)], o) == Named(m.fields, o)
    {
      NamedAppend(m.fields, Field(name, value), o);
    }
    Message(m.fields + [Field(name, value)], m.content)
  }
}

/** The `SendEmail` backend: one message per event, the allow-listed headers
    laid over it, and one SMTP session that sends the whole batch. */
module SendEmail {
  import opened Wrappers
  import opened Errors
  import opened Config
  import opened EmailMessage
  import opened MessageSplit
  import opened Text

  /** `_prepare_event`: Subject from the event summary, From and To from the
      `[mail]` section, the body text as content. Each assignment goes
      through `SetHeader`, so a value spanning lines raises ValueError. */
  function Prepare(mail: Section, summary: Option<string>, text: string): (r: Result<Message, Error>)
    ensures r.Success? <==> && "sender" in mail && "recipient" in mail && summary.Some?
                            && !MultiLine(summary.value) && !MultiLine(mail["sender"]) && !MultiLine(mail["recipient"])
    ensures "sender" in mail && "recipient" in mail && summary.None? ==> r == Failure(KeyError("summary"))
    ensures "sender" in mail && "recipient" in mail && summary.Some? && MultiLine(summary.value)
            ==> r == Failure(ValueError("Subject"))
    ensures r.Success? ==> && Get(r.value, "Subject") == Some(summary.value)
                           && Get(r.value, "From") == Some(mail["sender"])
                           && Get(r.value, "To") == Some(mail["recipient"])
                           && |r.value.fields| == 3
                           && r.value.content == text
                           && r.value == Envelope(text, summary.value, mail["sender"], mail["recipient"])
  {
    var sender :- Require(mail, "sender");
    var recipient :- Require(mail, "recipient");
    if summary.None? then Failure(KeyError("summary"))
    else
      EnvelopeFields(text, summary.value, sender, recipient);
      var m1 :- SetHeader(Message([], text), "Subject", summary.value);
      var m2 :- SetHeader(m1, "From", sender);
      var m3 :- SetHeader(m2, "To", recipient);
      Success(m3)
  }

  /** A new message with the body `text` and, in this order, Subject, From
      and To. */
  function Envelope(text: string, subject: string, sender: string, recipient: string): Message {
    Append(Append(Append(Message([], text), "Subject", subject), "From", sender), "To", recipient)
  }

  lemma EnvelopeFields(text: string, subject: string, sender: string, recipient: string)
    ensures var m := Envelope(text, subject, sender, recipient);
            && Get(m, "Subject") == Some(subject)
            && Get(m, "From") == Some(sender)
            && Get(m, "To") == Some(recipient)
            && |m.fields| == 3
            && m.content == text
  {
    assert !SameName("Subject", "From") && !SameName("Subject", "To") && !SameName("From", "To");
    var m1 := Append(Message([], text), "Subject", subject);
    var m2 := Append(m1, "From", sender);
    var m3 := Append(m2, "To", recipient);
    assert Named(m1.fields, "Subject") == [Field("Subject", subject)];
    assert Named(m2.fields, "From") == [Field("From", sender)];
    assert Named(m3.fields, "Subject") == Named(m1.fields, "Subject");
    assert Named(m3.fields, "From") == Named(m2.fields, "From");
  }

  /** On a new envelope, header `name` reads as the subject, the sender or the
      recipient when it names Subject, From or To, and is absent otherwise. */
  lemma EnvelopeGet(text: string, subject: string, sender: string, recipient: string, name: string)
    ensures Get(Envelope(text, subject, sender, recipient), name)
            == if SameName(name, "Subject") then Some(subject)
               else if SameName(name, "From") then Some(sender)
               else if SameName(name, "To") then Some(recipient)
               else None
  {
    var m1 := Append(Message([], text), "Subject", subject);
    var m2 := Append(m1, "From", sender);
    var m3 := Append(m2, "To", recipient);
    EnvelopeFields(text, subject, sender, recipient);
    if SameName(name, "Subject") {
      NamedSameName(m3.fields, name, "Subject");
    } else if SameName(name, "From") {
      NamedSameName(m3.fields, name, "From");
    } else if SameName(name, "To") {
      NamedSameName(m3.fields, name, "To");
    } else {
      assert Named(m3.fields, name) == Named(m2.fields, name) == Named(m1.fields, name) == [];
    }
  }

  /** An envelope header the allow-list names while its value is empty: the
      code as written keeps it, and setting it again raises. */
  predicate EmptyEnvelopeHeader(name: string, subject: string, sender: string, recipient: string) {
    || (SameName(name, "Subject") && subject == "")
    || (SameName(name, "From") && sender == "")
    || (SameName(name, "To") && recipient == "")
  }

  /** On a new envelope, an as-written step raises exactly for an empty
      envelope header or a value spanning lines. */
  lemma EnvelopeStepRaises(text: string, subject: string, sender: string, recipient: string,
                           h: ConfigHeader, store: map<string, string>, keyForm: KeyForm)
    ensures StepRaises(Envelope(text, subject, sender, recipient), h, store, keyForm)
            <==> EmptyEnvelopeHeader(h.name, subject, sender, recipient) || MultiLine(Chosen(h, store, keyForm))
  {
    var m := Envelope(text, subject, sender, recipient);
    EnvelopeGet(text, subject, sender, recipient, h.name);
    if SameName(h.name, "Subject") || SameName(h.name, "From") || SameName(h.name, "To") {
      EnvelopeNamesAreUnique(h.name);
    } else {
      assert Get(m, h.name) == None;
      assert !EmptyEnvelopeHeader(h.name, subject, sender, recipient);
    }
  }

  /** Subject, From and To are unique headers, in any case. */
  lemma EnvelopeNamesAreUnique(name: string)
    requires SameName(name, "Subject") || SameName(name, "From") || SameName(name, "To")
    ensures Unique(name)
  {
    if SameName(name, "Subject") {
      assert AsciiLower("Subject") == "subject";
    } else if SameName(name, "From") {
      assert AsciiLower("From") == "from";
    } else {
      assert AsciiLower("To") == "to";
    }
  }

  /** One step of `_apply_headers`: an existing header of that name is deleted,
      then the header is set. This is the evidently intended behaviour; see
      `ApplyHeaderAsWritten` for the code's truthiness test. */
  function ApplyHeader(m: Message, name: string, value: string): (r: Message)
    ensures r.content == m.content
    ensures Named(r.fields, name) == [Field(name, value)]
    ensures forall o :: !SameName(o, name) ==> Named(r.fields, o) == Named(m.fields, o)
  {
    var cleared := if Get(m, name).Some? then Delete(m, name) else m;
    Append(cleared, name, value)
  }

  /** The header names the email library's default policy allows at most
      once per message (its header registry marks them unique), lower-cased. */
  const UniqueNames: set<string> :=
    {"subject", "date", "orig-date", "sender", "to", "cc", "bcc", "from", "reply-to",
     "mime-version", "content-type", "content-disposition", "content-transfer-encoding",
     "message-id"}

  predicate Unique(name: string) {
    AsciiLower(name) in UniqueNames
  }

  /** `msg[name] = value` under that policy: assigning a unique header while a
      field of that name is present raises ValueError, and so does a value
      that spans lines; otherwise the field is added after the existing
      ones. */
  function SetHeader(m: Message, name: string, value: string): (r: Result<Message, Error>)
    ensures r.Failure? <==> (Unique(name) && Named(m.fields, name) != []) || MultiLine(value)
    ensures r.Failure? ==> r.error == ValueError(name)
    ensures r.Success? ==> r.value == Append(m, name, value)
  {
    if Unique(name) && Named(m.fields, name) != [] then Failure(ValueError(name))
    else if MultiLine(value) then Failure(ValueError(name))
    else Success(Append(m, name, value))
  }

  /** Whether the as-written step for header `h` raises on message `m`: the
      header is unique and present with the empty value, which is kept, or
      its new value spans lines. */
  predicate StepRaises(m: Message, h: ConfigHeader, store: map<string, string>, keyForm: KeyForm) {
    (Unique(h.name) && Get(m, h.name) == Some("")) || MultiLine(Chosen(h, store, keyForm))
  }

  /** One step of `_apply_headers` as written: the old header is deleted only
      when its value is truthy. A header present with the empty value stays,
      so setting a unique header then raises and any other header is added
      beside it. */
  function ApplyHeaderAsWritten(m: Message, name: string, value: string): (r: Result<Message, Error>)
    ensures r.Failure? <==> (Unique(name) && Get(m, name) == Some("")) || MultiLine(value)
    ensures r.Failure? ==> r.error == ValueError(name)
    ensures Get(m, name) != Some("") && !MultiLine(value) ==> r == Success(ApplyHeader(m, name, value))
    ensures Get(m, name) == Some("") && !Unique(name) && !MultiLine(value) ==>
              && r.Success?
              && |Named(r.value.fields, name)| == |Named(m.fields, name)| + 1
    ensures r.Success? ==> && r.value.content == m.content
                           && forall o :: !SameName(o, name) ==> Named(r.value.fields, o) == Named(m.fields, o)
  {
    var cleared := if Get(m, name).Some? && Get(m, name).value != "" then Delete(m, name) else m;
    SetHeader(cleared, name, value)
  }

  /** `_apply_headers`: every allow-listed header is set in turn, with the
      event's value when the header store has one and the configured default
      otherwise. */
  function ApplyHeaders(m: Message, policy: HeaderPolicy, store: map<string, string>, keyForm: KeyForm): (r: Message)
    ensures r.content == m.content
    decreases |policy|
  {
    if |policy| == 0 then m
    else
      var h := policy[|policy| - 1];
      var prev := ApplyHeaders(m, policy[..|policy| - 1], store, keyForm);
      ApplyHeader(prev, h.name, Lookup(store, keyForm, h.name, h.default))
  }

  /** The value `_apply_headers` gives an allow-listed header. */
  function Chosen(h: ConfigHeader, store: map<string, string>, keyForm: KeyForm): string {
    Lookup(store, keyForm, h.name, h.default)
  }

  /** Headers outside the allow-list are left as they were; in particular an
      event header that is not allow-listed never reaches the message. */
  lemma {:induction false} ApplyHeadersKeepsOthers(m: Message, policy: HeaderPolicy, store: map<string, string>,
                                                   keyForm: KeyForm, o: string)
    requires forall j :: 0 <= j < |policy| ==> !SameName(o, policy[j].name)
    ensures Named(ApplyHeaders(m, policy, store, keyForm).fields, o) == Named(m.fields, o)
    decreases |policy|
  {
    if |policy| > 0 {
      var init := policy[..|policy| - 1];
      assert forall j :: 0 <= j < |init| ==> init[j] == policy[j];
      ApplyHeadersKeepsOthers(m, init, store, keyForm, o);
    }
  }

  /** Each allow-listed header appears on the message exactly once, with the
      event's value when the event sets it and the configured default
      otherwise; an earlier field of that name is replaced, not kept. */
  lemma ApplyHeadersSetsEachOnce(m: Message, policy: HeaderPolicy, store: map<string, string>,
                                 keyForm: KeyForm, j: int)
    requires DistinctNames(policy)
    requires 0 <= j < |policy|
    ensures Named(ApplyHeaders(m, policy, store, keyForm).fields, policy[j].name)
            == [Field(policy[j].name, Chosen(policy[j], store, keyForm))]
  {
    forall k | j < k < |policy|
      ensures !SameName(policy[j].name, policy[k].name)
    {
      DistinctAt(policy, j, k);
    }
    ApplyHeadersSetsUnshadowed(m, policy, store, keyForm, j);
  }

  /** The same, needing only that no later entry of the allow-list shares the
      header's name. */
  lemma {:induction false} ApplyHeadersSetsUnshadowed(m: Message, policy: HeaderPolicy, store: map<string, string>,
                                                      keyForm: KeyForm, j: int)
    requires 0 <= j < |policy|
    requires forall k :: j < k < |policy| ==> !SameName(policy[j].name, policy[k].name)
    ensures Named(ApplyHeaders(m, policy, store, keyForm).fields, policy[j].name)
            == [Field(policy[j].name, Chosen(policy[j], store, keyForm))]
    decreases |policy|
  {
    if j == |policy| - 1 {
      ApplyHeadersLast(m, policy, store, keyForm);
    } else {
      var init := policy[..|policy| - 1];
      assert forall k :: 0 <= k < |init| ==> init[k] == policy[k];
      ApplyHeadersSetsUnshadowed(m, init, store, keyForm, j);
      ApplyHeadersStep(m, policy, store, keyForm, policy[j].name);
    }
  }

  /** The last header of the allow-list ends up set once, to its chosen value. */
  lemma ApplyHeadersLast(m: Message, policy: HeaderPolicy, store: map<string, string>, keyForm: KeyForm)
    requires |policy| > 0
    ensures var h := policy[|policy| - 1];
            Named(ApplyHeaders(m, policy, store, keyForm).fields, h.name) == [Field(h.name, Chosen(h, store, keyForm))]
  {
  }

  lemma DistinctAt(policy: HeaderPolicy, i: int, j: int)
    requires DistinctNames(policy)
    requires 0 <= i < j < |policy|
    ensures !SameName(policy[i].name, policy[j].name)
  {
  }

  /** The last header of the allow-list leaves the other names as the earlier
      ones left them. */
  lemma ApplyHeadersStep(m: Message, policy: HeaderPolicy, store: map<string, string>, keyForm: KeyForm, o: string)
    requires |policy| > 0
    requires !SameName(o, policy[|policy| - 1].name)
    ensures Named(ApplyHeaders(m, policy, store, keyForm).fields, o)
            == Named(ApplyHeaders(m, policy[..|policy| - 1], store, keyForm).fields, o)
  {
  }

  /** `_apply_headers` as written, built from `ApplyHeaderAsWritten`: the
      first step that raises ends the loop. */
  function ApplyHeadersAsWritten(m: Message, policy: HeaderPolicy, store: map<string, string>,
                                 keyForm: KeyForm): (r: Result<Message, Error>)
    ensures r.Success? ==> r.value.content == m.content
    ensures r.Failure? ==> r.error.ValueError?
    decreases |policy|
  {
    if |policy| == 0 then Success(m)
    else
      var h := policy[|policy| - 1];
      var prev :- ApplyHeadersAsWritten(m, policy[..|policy| - 1], store, keyForm);
      ApplyHeaderAsWritten(prev, h.name, Chosen(h, store, keyForm))
  }

  /** As written too, headers outside the allow-list are left as they were. */
  lemma {:induction false} AsWrittenKeepsOthers(m: Message, policy: HeaderPolicy, store: map<string, string>,
                                               keyForm: KeyForm, o: string)
    requires forall j :: 0 <= j < |policy| ==> !SameName(o, policy[j].name)
    requires ApplyHeadersAsWritten(m, policy, store, keyForm).Success?
    ensures Named(ApplyHeadersAsWritten(m, policy, store, keyForm).value.fields, o) == Named(m.fields, o)
    decreases |policy|
  {
    if |policy| > 0 {
      var init := policy[..|policy| - 1];
      assert forall j :: 0 <= j < |init| ==> init[j] == policy[j];
      AsWrittenKeepsOthers(m, init, store, keyForm, o);
    }
  }

  /** With an allow-list that names each header once, the code as written
      raises exactly when some allow-listed header's step raises on the
      message as it was before the loop. */
  lemma {:induction false} AsWrittenFailsIff(m: Message, policy: HeaderPolicy, store: map<string, string>,
                                             keyForm: KeyForm)
    requires DistinctNames(policy)
    ensures ApplyHeadersAsWritten(m, policy, store, keyForm).Failure?
            <==> exists j :: 0 <= j < |policy| && StepRaises(m, policy[j], store, keyForm)
    decreases |policy|
  {
    if |policy| > 0 {
      var n := |policy| - 1;
      var init := policy[..n];
      DistinctInit(policy);
      AsWrittenFailsIff(m, init, store, keyForm);
      SomeStepRaisesSplit(m, policy, store, keyForm);
      if ApplyHeadersAsWritten(m, init, store, keyForm).Failure? {
        AsWrittenStaysFailed(m, policy, store, keyForm);
      } else {
        AsWrittenLastStep(m, policy, store, keyForm);
      }
    }
  }

  /** Some allow-listed header's step raises on `m` exactly when one of the
      earlier ones or the last one does. */
  lemma SomeStepRaisesSplit(m: Message, policy: HeaderPolicy, store: map<string, string>, keyForm: KeyForm)
    requires |policy| > 0
    ensures var n := |policy| - 1;
            (exists j :: 0 <= j < |policy| && StepRaises(m, policy[j], store, keyForm))
            <==> (exists j :: 0 <= j < n && StepRaises(m, policy[..n][j], store, keyForm))
                 || StepRaises(m, policy[n], store, keyForm)
  {
    var n := |policy| - 1;
    assert forall j :: 0 <= j < n ==> policy[..n][j] == policy[j];
  }

  /** Once a step of the loop has raised, the loop as a whole raises. */
  lemma AsWrittenStaysFailed(m: Message, policy: HeaderPolicy, store: map<string, string>, keyForm: KeyForm)
    requires |policy| > 0
    requires ApplyHeadersAsWritten(m, policy[..|policy| - 1], store, keyForm).Failure?
    ensures ApplyHeadersAsWritten(m, policy, store, keyForm)
            == ApplyHeadersAsWritten(m, policy[..|policy| - 1], store, keyForm)
  {
  }

  /** When the earlier steps all go through, the loop raises exactly when its
      last step raises on the message as it was before the loop. */
  lemma AsWrittenLastStep(m: Message, policy: HeaderPolicy, store: map<string, string>, keyForm: KeyForm)
    requires DistinctNames(policy) && |policy| > 0
    requires ApplyHeadersAsWritten(m, policy[..|policy| - 1], store, keyForm).Success?
    ensures ApplyHeadersAsWritten(m, policy, store, keyForm).Failure?
            <==> StepRaises(m, policy[|policy| - 1], store, keyForm)
  {
    LastStepSeesOriginal(m, policy, store, keyForm);
  }

  /** And the error is the ValueError of the first header whose step raises. */
  lemma {:induction false} AsWrittenRaisesFirst(m: Message, policy: HeaderPolicy, store: map<string, string>,
                                                keyForm: KeyForm, j: int)
    requires DistinctNames(policy)
    requires 0 <= j < |policy| && StepRaises(m, policy[j], store, keyForm)
    requires forall i :: 0 <= i < j ==> !StepRaises(m, policy[i], store, keyForm)
    ensures ApplyHeadersAsWritten(m, policy, store, keyForm) == Failure(ValueError(policy[j].name))
    decreases |policy|, 1
  {
    if j < |policy| - 1 {
      AsWrittenRaisesBeforeLast(m, policy, store, keyForm, j);
    } else {
      AsWrittenEarlierStepsPass(m, policy, store, keyForm);
      AsWrittenLastStepRaises(m, policy, store, keyForm);
    }
  }

  /** A first raising step before the last one ends the loop among the
      earlier headers, and the last step never runs. */
  lemma {:induction false} AsWrittenRaisesBeforeLast(m: Message, policy: HeaderPolicy, store: map<string, string>,
                                                     keyForm: KeyForm, j: int)
    requires DistinctNames(policy)
    requires 0 <= j < |policy| - 1 && StepRaises(m, policy[j], store, keyForm)
    requires forall i :: 0 <= i < j ==> !StepRaises(m, policy[i], store, keyForm)
    ensures ApplyHeadersAsWritten(m, policy, store, keyForm) == Failure(ValueError(policy[j].name))
    decreases |policy|, 0
  {
    var init := policy[..|policy| - 1];
    DistinctInit(policy);
    FirstRaisingInInit(m, policy, init, store, keyForm, j);
    AsWrittenRaisesFirst(m, init, store, keyForm, j);
    AsWrittenStaysFailed(m, policy, store, keyForm);
  }

  /** A first raising step before the last one is the first raising step of
      the earlier headers. */
  lemma FirstRaisingInInit(m: Message, policy: HeaderPolicy, init: HeaderPolicy,
                            store: map<string, string>, keyForm: KeyForm, j: int)
    requires 0 <= j < |policy| - 1 && init == policy[..|policy| - 1]
    requires StepRaises(m, policy[j], store, keyForm)
    requires forall i :: 0 <= i < j ==> !StepRaises(m, policy[i], store, keyForm)
    ensures StepRaises(m, init[j], store, keyForm)
    ensures forall i :: 0 <= i < j ==> !StepRaises(m, init[i], store, keyForm)
  {
    assert forall i :: 0 <= i <= j ==> init[i] == policy[i];
  }

  /** When no earlier header's step raises on the original message, the
      earlier steps all go through. */
  lemma AsWrittenEarlierStepsPass(m: Message, policy: HeaderPolicy, store: map<string, string>, keyForm: KeyForm)
    requires DistinctNames(policy) && |policy| > 0
    requires forall i :: 0 <= i < |policy| - 1 ==> !StepRaises(m, policy[i], store, keyForm)
    ensures ApplyHeadersAsWritten(m, policy[..|policy| - 1], store, keyForm).Success?
  {
    var n := |policy| - 1;
    DistinctInit(policy);
    AsWrittenFailsIff(m, policy[..n], store, keyForm);
    SomeStepRaisesSplit(m, policy, store, keyForm);
  }

  /** When the earlier steps all go through and the last one raises, the
      error names the last header. */
  lemma AsWrittenLastStepRaises(m: Message, policy: HeaderPolicy, store: map<string, string>, keyForm: KeyForm)
    requires DistinctNames(policy) && |policy| > 0
    requires ApplyHeadersAsWritten(m, policy[..|policy| - 1], store, keyForm).Success?
    requires StepRaises(m, policy[|policy| - 1], store, keyForm)
    ensures ApplyHeadersAsWritten(m, policy, store, keyForm) == Failure(ValueError(policy[|policy| - 1].name))
  {
    LastStepSeesOriginal(m, policy, store, keyForm);
  }

  lemma DistinctInit(policy: HeaderPolicy)
    requires DistinctNames(policy) && |policy| > 0
    ensures DistinctNames(policy[..|policy| - 1])
    ensures forall j :: 0 <= j < |policy| - 1 ==> !SameName(policy[|policy| - 1].name, policy[j].name)
  {
    var init := policy[..|policy| - 1];
    forall i, j | 0 <= i < j < |init|
      ensures !SameName(init[i].name, init[j].name)
    {
      DistinctAt(policy, i, j);
    }
    forall j | 0 <= j < |policy| - 1
      ensures !SameName(policy[|policy| - 1].name, policy[j].name)
    {
      DistinctAt(policy, j, |policy| - 1);
    }
  }

  /** The last step of the loop, when it is reached, sees its header as the
      message had it before the loop. */
  lemma LastStepSeesOriginal(m: Message, policy: HeaderPolicy, store: map<string, string>, keyForm: KeyForm)
    requires DistinctNames(policy) && |policy| > 0
    requires ApplyHeadersAsWritten(m, policy[..|policy| - 1], store, keyForm).Success?
    ensures var h := policy[|policy| - 1];
            StepRaises(ApplyHeadersAsWritten(m, policy[..|policy| - 1], store, keyForm).value, h, store, keyForm)
            == StepRaises(m, h, store, keyForm)
  {
    var n := |policy| - 1;
    var init := policy[..n];
    var h := policy[n];
    DistinctInit(policy);
    assert forall j :: 0 <= j < |init| ==> init[j] == policy[j];
    AsWrittenKeepsOthers(m, init, store, keyForm, h.name);
  }

  /** No allow-listed value spans lines, and no allow-listed envelope header
      is empty. */
  predicate OverlayFits(policy: HeaderPolicy, store: map<string, string>, keyForm: KeyForm,
                        subject: string, sender: string, recipient: string) {
    && (forall j :: 0 <= j < |policy| ==> !MultiLine(Chosen(policy[j], store, keyForm)))
    && (forall j :: 0 <= j < |policy| ==> !EmptyEnvelopeHeader(policy[j].name, subject, sender, recipient))
  }

  /** On a new envelope, the code as written lays the allow-list over it
      exactly when no allow-listed value spans lines and no allow-listed
      envelope header is empty. */
  lemma EnvelopeOverlaySucceedsIff(text: string, subject: string, sender: string, recipient: string,
                                   policy: HeaderPolicy, store: map<string, string>, keyForm: KeyForm)
    requires DistinctNames(policy)
    ensures ApplyHeadersAsWritten(Envelope(text, subject, sender, recipient), policy, store, keyForm).Success?
            <==> OverlayFits(policy, store, keyForm, subject, sender, recipient)
  {
    var m := Envelope(text, subject, sender, recipient);
    AsWrittenFailsIff(m, policy, store, keyForm);
    forall j | 0 <= j < |policy|
      ensures StepRaises(m, policy[j], store, keyForm)
              <==> EmptyEnvelopeHeader(policy[j].name, subject, sender, recipient) || MultiLine(Chosen(policy[j], store, keyForm))
    {
      EnvelopeStepRaises(text, subject, sender, recipient, policy[j], store, keyForm);
    }
  }

  /** On a message with no empty header field, and with no allow-listed
      value that spans lines, the code as written does what the intended
      overlay does. */
  lemma {:induction false} AsWrittenAgreesWithoutEmptyFields(m: Message, policy: HeaderPolicy,
                                                             store: map<string, string>, keyForm: KeyForm)
    requires DistinctNames(policy)
    requires forall i :: 0 <= i < |m.fields| ==> m.fields[i].value != ""
    requires forall j :: 0 <= j < |policy| ==> !MultiLine(Chosen(policy[j], store, keyForm))
    ensures ApplyHeadersAsWritten(m, policy, store, keyForm) == Success(ApplyHeaders(m, policy, store, keyForm))
    decreases |policy|
  {
    if |policy| > 0 {
      var init := policy[..|policy| - 1];
      var h := policy[|policy| - 1];
      forall i, j | 0 <= i < j < |init|
        ensures !SameName(init[i].name, init[j].name)
      {
        DistinctAt(policy, i, j);
      }
      assert forall j :: 0 <= j < |init| ==> init[j] == policy[j];
      AsWrittenAgreesWithoutEmptyFields(m, init, store, keyForm);
      forall j | 0 <= j < |init|
        ensures !SameName(h.name, init[j].name)
      {
        DistinctAt(policy, j, |policy| - 1);
      }
      ApplyHeadersKeepsOthers(m, init, store, keyForm, h.name);
      var prev := ApplyHeaders(m, init, store, keyForm);
      if Get(prev, h.name).Some? {
        var f := Named(prev.fields, h.name)[0];
        assert f in m.fields;
      }
    }
  }

  /** With the allow-list `[Subject]` and an event whose summary is empty, the
      code as written raises ValueError, since the empty Subject is kept and
      a message may carry only one; the intended overlay leaves one Subject,
      carrying the configured default. */
  lemma EmptySummaryRaises(mail: Section, text: string, default: string, keyForm: KeyForm)
    requires "sender" in mail && "recipient" in mail
    requires !MultiLine(mail["sender"]) && !MultiLine(mail["recipient"])
    ensures Prepare(mail, Some(""), text).Success?
    ensures var policy := [ConfigHeader("Subject", default)];
            var msg := Prepare(mail, Some(""), text).value;
            && ApplyHeadersAsWritten(msg, policy, map[], keyForm) == Failure(ValueError("Subject"))
            && Named(ApplyHeaders(msg, policy, map[], keyForm).fields, "Subject") == [Field("Subject", default)]
  {
    var policy := [ConfigHeader("Subject", default)];
    var msg := Prepare(mail, Some(""), text).value;
    SubjectIsUnique();
    KeptEmptyUniqueHeaderRaises(msg, "Subject", default, keyForm);
    assert DistinctNames(policy);
    ApplyHeadersSetsEachOnce(msg, policy, map[], keyForm, 0);
  }

  /** The as-written overlay of a single unique header that is present with
      the empty value. */
  lemma KeptEmptyUniqueHeaderRaises(m: Message, name: string, default: string, keyForm: KeyForm)
    requires Get(m, name) == Some("") && Unique(name)
    ensures ApplyHeadersAsWritten(m, [ConfigHeader(name, default)], map[], keyForm) == Failure(ValueError(name))
  {
    var policy := [ConfigHeader(name, default)];
    assert policy[..0] == [];
    assert ApplyHeadersAsWritten(m, policy[..0], map[], keyForm) == Success(m);
  }

  lemma SubjectIsUnique()
    ensures Unique("Subject")
  {
    assert AsciiLower("Subject") == "subject";
  }

  /** What the SMTP session does, or what a dry run prints. */
  datatype MailEffect =
    | Print(msg: Message)
    | Connect(server: string, port: string)
    | Login(user: string, password: string)
    | Send(msg: Message)
    | Quit

  function Prints(msgs: seq<Message>): (r: seq<MailEffect>)
    ensures |r| == |msgs|
    ensures forall i :: 0 <= i < |msgs| ==> r[i] == Print(msgs[i])
  {
    if |msgs| == 0 then [] else [Print(msgs[0])] + Prints(msgs[1..])
  }

  function Sends(msgs: seq<Message>): (r: seq<MailEffect>)
    ensures |r| == |msgs|
    ensures forall i :: 0 <= i < |msgs| ==> r[i] == Send(msgs[i])
  {
    if |msgs| == 0 then [] else [Send(msgs[0])] + Sends(msgs[1..])
  }

  /** The step numbers of one session: 0 connects, 1 logs in, 2 + k sends
      message k. `smtpOk(step)` says whether the server accepts that step. */
  function SendStep(k: nat): nat { 2 + k }

  /** Sends `msgs[i..]` in order, stopping at the first refused message; the
      second component is the index of that message. */
  function SendFrom(msgs: seq<Message>, i: nat, smtpOk: nat -> bool): (r: (seq<MailEffect>, Option<nat>))
    requires i <= |msgs|
    ensures r.1.None? ==> r.0 == Sends(msgs[i..]) && forall k :: i <= k < |msgs| ==> smtpOk(SendStep(k))
    ensures r.1.Some? ==> && i <= r.1.value < |msgs|
                          && !smtpOk(SendStep(r.1.value))
                          && (forall k :: i <= k < r.1.value ==> smtpOk(SendStep(k)))
                          && r.0 == Sends(msgs[i..r.1.value])
    decreases |msgs| - i
  {
    if i == |msgs| then ([], None)
    else if !smtpOk(SendStep(i)) then ([], Some(i))
    else
      var rest := SendFrom(msgs, i + 1, smtpOk);
      if rest.1.Some? then
        SendsFirst(msgs, i, rest.1.value);
        ([Send(msgs[i])] + rest.0, rest.1)
      else
        SendsFirst(msgs, i, |msgs|);
        ([Send(msgs[i])] + rest.0, rest.1)
  }

  lemma SendsFirst(msgs: seq<Message>, i: nat, k: nat)
    requires i < k <= |msgs|
    ensures Sends(msgs[i..k]) == [Send(msgs[i])] + Sends(msgs[i + 1..k])
  {
    assert msgs[i..k][1..] == msgs[i + 1..k];
  }

  /** `_perform_action`. A dry run prints every message and opens no
      connection. Otherwise one session is opened, logged into once, used for
      every message in order, and closed on every way out of the session. */
  function Perform(mail: Section, msgs: seq<Message>, dryRun: bool, smtpOk: nat -> bool): Outcome<MailEffect>
  {
    if "sender" !in mail then Outcome([], Raised(KeyError("sender")))
    else if "recipient" !in mail then Outcome([], Raised(KeyError("recipient")))
    else if dryRun then Outcome(Prints(msgs), Returned(None))
    else if "server" !in mail then Outcome([], Raised(KeyError("server")))
    else if "port" !in mail then Outcome([], Raised(KeyError("port")))
    else
      var open := [Connect(mail["server"], mail["port"])];
      if !smtpOk(0) then Outcome([], Raised(SmtpError(0)))
      else if "password" !in mail then Outcome(open + [Quit], Raised(KeyError("password")))
      else
        var login := open + [Login(mail["sender"], mail["password"])];
        if !smtpOk(1) then Outcome(open + [Quit], Raised(SmtpError(1)))
        else
          var (sent, failed) := SendFrom(msgs, 0, smtpOk);
          if failed.Some? then Outcome(login + sent + [Quit], Raised(SmtpError(SendStep(failed.value))))
          else Outcome(login + sent + [Quit], Returned(None))
  }

  /** A dry run prints exactly the messages, in order, and opens no connection. */
  lemma DryRunOnlyPrints(mail: Section, msgs: seq<Message>, smtpOk: nat -> bool)
    requires "sender" in mail && "recipient" in mail
    ensures var o := Perform(mail, msgs, true, smtpOk);
            && o.status == Returned(None)
            && |o.effects| == |msgs|
            && (forall i :: 0 <= i < |msgs| ==> o.effects[i] == Print(msgs[i]))
  {
  }

  /** The number of messages accepted before the first refused one. */
  function Accepted(msgs: seq<Message>, smtpOk: nat -> bool): (k: nat)
    ensures k <= |msgs|
    ensures forall i :: 0 <= i < k ==> smtpOk(SendStep(i))
    ensures k < |msgs| ==> !smtpOk(SendStep(k))
  {
    var r := SendFrom(msgs, 0, smtpOk);
    if r.1.Some? then r.1.value else |msgs|
  }

  /** Once the connection is open, the session logs in once, sends the
      messages in order up to the first refused one and sends nothing after
      it, and the last thing it does is close the connection. The batch
      succeeds exactly when every message is accepted. */
  lemma SessionSendsInOrderAndCloses(mail: Section, msgs: seq<Message>, smtpOk: nat -> bool)
    requires "sender" in mail && "recipient" in mail && "server" in mail && "port" in mail && "password" in mail
    requires smtpOk(0) && smtpOk(1)
    ensures var o := Perform(mail, msgs, false, smtpOk); var k := Accepted(msgs, smtpOk);
            && o.effects == [Connect(mail["server"], mail["port"]), Login(mail["sender"], mail["password"])]
                            + Sends(msgs[..k]) + [Quit]
            && (o.status == Returned(None) <==> k == |msgs|)
            && (k < |msgs| ==> o.status == Raised(SmtpError(SendStep(k))))
  {
    assert msgs[0..] == msgs;
  }

  /** An empty batch still opens, logs into and closes a session. */
  lemma EmptyBatchStillConnects(mail: Section, smtpOk: nat -> bool)
    requires "sender" in mail && "recipient" in mail && "server" in mail && "port" in mail && "password" in mail
    requires smtpOk(0) && smtpOk(1)
    ensures Perform(mail, [], false, smtpOk).effects
            == [Connect(mail["server"], mail["port"]), Login(mail["sender"], mail["password"]), Quit]
  {
    SessionSendsInOrderAndCloses(mail, [], smtpOk);
  }
}

=== FILE: message_split.dfy ===
/** `Backend._split_message`: an event description is cut into a leading block
    of `Key: value` header lines and the body text that follows. */
module MessageSplit {
  import opened Wrappers
  import opened Errors
  import opened Text

  /** The key normalisation of the header store (configparser's `optionxform`),
      applied both when a header is stored and when it is looked up. */
  type KeyForm = string -> string

  /** The character class `[A-Za-z0-9-]` of header keys. */
  predicate IsKeyChar(ch: char) {
    'A' <= ch <= 'Z' || 'a' <= ch <= 'z' || '0' <= ch <= '9' || ch == '-'
  }

  predicate AllKeyChars(s: string) {
    forall i :: 0 <= i < |s| ==> IsKeyChar(s[i])
  }

  /** Length of the longest prefix of `line` made of key characters. */
  function KeyLen(line: string): (n: nat)
    ensures n <= |line|
  {
    if |line| == 0 || !IsKeyChar(line[0]) then 0 else 1 + KeyLen(line[1..])
  }

  /** The key prefix is made of key characters and stops at the first other
      character. */
  lemma {:induction false} KeyLenIsLongestKeyPrefix(line: string)
    ensures AllKeyChars(line[..KeyLen(line)])
    ensures KeyLen(line) < |line| ==> !IsKeyChar(line[KeyLen(line)])
  {
    if |line| > 0 && IsKeyChar(line[0]) {
      var m := KeyLen(line[1..]);
      KeyLenIsLongestKeyPrefix(line[1..]);
      assert line[..1 + m] == [line[0]] + line[1..][..m];
    }
  }

  /** The header test: the key prefix is followed by a colon and a space.
      A key cannot contain ':' so the key is the whole key-character prefix. */
  predicate IsHeaderLine(line: string) {
    var n := KeyLen(line);
    n + 2 <= |line| && line[n] == ':' && line[n + 1] == ' '
  }

  /** `line` matches `^[A-Za-z0-9-]*: .*$` with a key of length `n`. */
  ghost predicate HeaderAt(line: string, n: int) {
    0 <= n && n + 2 <= |line| && AllKeyChars(line[..n]) && line[n] == ':' && line[n + 1] == ' '
  }

  ghost predicate MatchesHeaderPattern(line: string) {
    exists n :: HeaderAt(line, n)
  }

  /** The executable header test agrees with the header pattern, whose key may
      be empty. */
  lemma HeaderTestMatchesPattern(line: string)
    ensures IsHeaderLine(line) <==> MatchesHeaderPattern(line)
  {
    var k := KeyLen(line);
    KeyLenIsLongestKeyPrefix(line);
    if IsHeaderLine(line) {
      assert HeaderAt(line, k);
    }
    if MatchesHeaderPattern(line) {
      var n :| HeaderAt(line, n);
      assert n == k;
    }
  }

  function KeyOf(line: string): string {
    line[..KeyLen(line)]
  }

  function ValueOf(line: string): string
    requires IsHeaderLine(line)
  {
    line[KeyLen(line) + 2..]
  }

  /** A header line is its key, ": " and its value. */
  lemma HeaderLineParts(line: string)
    requires IsHeaderLine(line)
    ensures AllKeyChars(KeyOf(line))
    ensures line == KeyOf(line) + ": " + ValueOf(line)
  {
    KeyLenIsLongestKeyPrefix(line);
  }

  /** Conversely, a key followed by ": " and any value is a header line with
      that key and value, even when the value contains ':' or '='. */
  lemma HeaderLineOfParts(key: string, value: string)
    requires AllKeyChars(key)
    ensures IsHeaderLine(key + ": " + value)
    ensures KeyOf(key + ": " + value) == key
    ensures ValueOf(key + ": " + value) == value
  {
    var line := key + ": " + value;
    assert HeaderAt(line, |key|) by {
      assert line[..|key|] == key;
    }
    HeaderTestMatchesPattern(line);
    KeyLenIsLongestKeyPrefix(line);
    assert line[..KeyLen(line)] == key;
  }

  /** The number of leading header lines: the header section ends at the first
      line that is not header-shaped. */
  function HeaderCount(lines: seq<string>): (n: nat)
    ensures n <= |lines|
    ensures forall i :: 0 <= i < n ==> IsHeaderLine(lines[i])
    ensures n < |lines| ==> !IsHeaderLine(lines[n])
  {
    if |lines| == 0 || !IsHeaderLine(lines[0]) then 0
    else 1 + HeaderCount(lines[1..])
  }

  /** The scan of `_split_message`: a one-way "still in header section" flag;
      a line is a header while the flag is set and the line is header-shaped,
      otherwise the flag drops and the line goes to the body. `warned` lists the
      lines that contain '=' while the flag is set; the warning changes nothing. */
  method ClassifyLines(lines: seq<string>) returns (header: seq<string>, text: seq<string>, warned: seq<nat>)
    ensures header == lines[..HeaderCount(lines)]
    ensures text == lines[HeaderCount(lines)..]
    ensures forall i: nat :: i in warned <==> i < |lines| && i <= HeaderCount(lines) && '=' in lines[i]
  {
    header, text, warned := [], [], [];
    var headerPart := true;
    var j := 0;
    var n := HeaderCount(lines);
    while j < |lines|
      invariant 0 <= j <= |lines|
      invariant headerPart <==> j <= n
      invariant headerPart ==> header == lines[..j] && text == []
      invariant !headerPart ==> header == lines[..n] && text == lines[n..j]
      invariant warned == Warned(lines, n, j)
    {
      var line := lines[j];
      if headerPart && '=' in line {
        warned := warned + [j];
      }
      if headerPart && IsHeaderLine(line) {
        assert lines[..j + 1] == lines[..j] + [line];
        header := header + [line];
      } else {
        assert lines[n..j + 1] == lines[n..j] + [line];
        headerPart := false;
        text := text + [line];
      }
      j := j + 1;
    }
    WarnedLines(lines, n, |lines|);
  }

  /** The indices below `j` of the lines that the scan warns about: those
      containing '=' while the header flag is still set (index at most `n`). */
  function Warned(lines: seq<string>, n: nat, j: nat): seq<nat>
    requires j <= |lines|
  {
    if j == 0 then []
    else if j - 1 <= n && '=' in lines[j - 1] then Warned(lines, n, j - 1) + [j - 1]
    else Warned(lines, n, j - 1)
  }

  lemma {:induction false} WarnedLines(lines: seq<string>, n: nat, j: nat)
    requires j <= |lines|
    ensures forall i: nat :: i in Warned(lines, n, j) <==> i < j && i <= n && '=' in lines[i]
  {
    if j > 0 {
      WarnedLines(lines, n, j - 1);
    }
  }

  /** Header mode never resumes: once a line fails the header test, every later
      line belongs to the body, header-shaped or not. */
  lemma HeaderModeIsMonotonic(lines: seq<string>, i: int, j: int)
    requires 0 <= i < j < |lines|
    requires !IsHeaderLine(lines[i])
    ensures HeaderCount(lines) <= i < j
  {
  }

  /** Line `j` is a header exactly when it and every line before it pass the
      header test. */
  lemma {:induction false} HeaderIffAllBeforeAreHeaders(lines: seq<string>, j: int)
    requires 0 <= j < |lines|
    ensures j < HeaderCount(lines) <==> forall i :: 0 <= i <= j ==> IsHeaderLine(lines[i])
  {
    if j > 0 && IsHeaderLine(lines[0]) {
      HeaderIffAllBeforeAreHeaders(lines[1..], j - 1);
      assert forall i :: 1 <= i <= j ==> lines[1..][i - 1] == lines[i];
    }
  }

  predicate AllHeaderLines(lines: seq<string>) {
    forall i :: 0 <= i < |lines| ==> IsHeaderLine(lines[i])
  }

  /** What configparser reads from a header line: its key and its value
      without surrounding whitespace. */
  function HeaderPair(line: string): (string, string)
    requires IsHeaderLine(line)
  {
    (KeyOf(line), Strip(ValueOf(line), Whitespace))
  }

  function Pairs(lines: seq<string>): (pairs: seq<(string, string)>)
    requires AllHeaderLines(lines)
    ensures |pairs| == |lines|
    ensures forall i :: 0 <= i < |lines| ==> pairs[i] == HeaderPair(lines[i])
  {
    seq(|lines|, i requires 0 <= i < |lines| && AllHeaderLines(lines) => HeaderPair(lines[i]))
  }

  /** No two pairs share a normalised key. */
  predicate DistinctKeys(pairs: seq<(string, string)>, keyForm: KeyForm) {
    forall i, j :: 0 <= i < j < |pairs| ==> keyForm(pairs[i].0) != keyForm(pairs[j].0)
  }

  /** configparser reading the pairs in order: each value is stored under the
      normalised key, and a key met a second time raises DuplicateOptionError
      there and then (configparser is strict by default). */
  function Scan(pairs: seq<(string, string)>, keyForm: KeyForm): (r: Result<map<string, string>, Error>)
    ensures r.Failure? ==> r.error.DuplicateOptionError?
    decreases |pairs|
  {
    if |pairs| == 0 then Success(map[])
    else
      var prev := Scan(pairs[..|pairs| - 1], keyForm);
      var last := pairs[|pairs| - 1];
      if prev.Failure? then prev
      else if keyForm(last.0) in prev.value then Failure(DuplicateOptionError(keyForm(last.0)))
      else Success(prev.value[keyForm(last.0) := last.1])
  }

  /** The scan succeeds exactly when the keys are distinct, and then stores
      every pair's value under its key and nothing else. */
  lemma {:induction false} ScanStoresEveryPair(pairs: seq<(string, string)>, keyForm: KeyForm)
    ensures Scan(pairs, keyForm).Success? <==> DistinctKeys(pairs, keyForm)
    ensures Scan(pairs, keyForm).Success? ==>
              && Scan(pairs, keyForm).value.Keys == (set i | 0 <= i < |pairs| :: keyForm(pairs[i].0))
              && forall i :: 0 <= i < |pairs| ==> Scan(pairs, keyForm).value[keyForm(pairs[i].0)] == pairs[i].1
    decreases |pairs|
  {
    if |pairs| > 0 {
      var init := pairs[..|pairs| - 1];
      var last := pairs[|pairs| - 1];
      ScanStoresEveryPair(init, keyForm);
      PrefixPairs(pairs);
      var prev := Scan(init, keyForm);
      if prev.Failure? {
        DistinctKeysOfPrefix(pairs, keyForm);
      } else if keyForm(last.0) in prev.value {
        var i :| 0 <= i < |init| && keyForm(init[i].0) == keyForm(last.0);
        assert keyForm(pairs[i].0) == keyForm(pairs[|pairs| - 1].0);
      } else {
        assert prev.value.Keys == (set i | 0 <= i < |pairs| - 1 :: keyForm(pairs[i].0));
        StoreExtends(pairs, keyForm, prev.value);
      }
    }
  }

  lemma PrefixPairs(pairs: seq<(string, string)>)
    requires |pairs| > 0
    ensures forall i :: 0 <= i < |pairs| - 1 ==> pairs[..|pairs| - 1][i] == pairs[i]
  {
  }

  /** Distinct keys stay distinct in a prefix. */
  lemma DistinctKeysOfPrefix(pairs: seq<(string, string)>, keyForm: KeyForm)
    requires |pairs| > 0
    ensures DistinctKeys(pairs, keyForm) ==> DistinctKeys(pairs[..|pairs| - 1], keyForm)
  {
    PrefixPairs(pairs);
  }

  /** Storing a new key extends a store that holds every earlier pair to one
      that holds every pair. */
  lemma StoreExtends(pairs: seq<(string, string)>, keyForm: KeyForm, prev: map<string, string>)
    requires |pairs| > 0
    requires DistinctKeys(pairs[..|pairs| - 1], keyForm)
    requires prev.Keys == (set i | 0 <= i < |pairs| - 1 :: keyForm(pairs[i].0))
    requires forall i :: 0 <= i < |pairs| - 1 ==> prev[keyForm(pairs[i].0)] == pairs[i].1
    requires keyForm(pairs[|pairs| - 1].0) !in prev
    ensures DistinctKeys(pairs, keyForm)
    ensures var last := pairs[|pairs| - 1];
            var next := prev[keyForm(last.0) := last.1];
            && next.Keys == (set i | 0 <= i < |pairs| :: keyForm(pairs[i].0))
            && forall i :: 0 <= i < |pairs| ==> next[keyForm(pairs[i].0)] == pairs[i].1
  {
    PrefixPairs(pairs);
    var n := |pairs| - 1;
    assert forall i :: 0 <= i < n ==> keyForm(pairs[i].0) in prev;
  }

  /** The error names the key of the first pair that repeats an earlier key. */
  lemma {:induction false} ScanStopsAtFirstRepeat(pairs: seq<(string, string)>, keyForm: KeyForm)
    requires Scan(pairs, keyForm).Failure?
    ensures exists j :: && 0 < j < |pairs|
                        && DistinctKeys(pairs[..j], keyForm)
                        && (exists i :: 0 <= i < j && keyForm(pairs[i].0) == keyForm(pairs[j].0))
                        && Scan(pairs, keyForm).error == DuplicateOptionError(keyForm(pairs[j].0))
    decreases |pairs|
  {
    var init := pairs[..|pairs| - 1];
    assert forall i :: 0 <= i < |init| ==> init[i] == pairs[i];
    if Scan(init, keyForm).Failure? {
      ScanStopsAtFirstRepeat(init, keyForm);
      var j :| && 0 < j < |init| && DistinctKeys(init[..j], keyForm)
               && (exists i :: 0 <= i < j && keyForm(init[i].0) == keyForm(init[j].0))
               && Scan(init, keyForm).error == DuplicateOptionError(keyForm(init[j].0));
      assert init[..j] == pairs[..j];
    } else {
      ScanStoresEveryPair(init, keyForm);
      var j := |pairs| - 1;
      assert init == pairs[..j];
      var i :| 0 <= i < |init| && keyForm(init[i].0) == keyForm(pairs[j].0);
    }
  }

  /** `read_string` of the `[headers]` section: the scan, then the error
      configparser defers to the end of the input for a line with an empty
      key. */
  function ReadHeaders(pairs: seq<(string, string)>, keyForm: KeyForm): (r: Result<map<string, string>, Error>)
    ensures r.Success? <==> Scan(pairs, keyForm).Success? && forall i :: 0 <= i < |pairs| ==> pairs[i].0 != ""
    ensures r.Success? ==> r.value == Scan(pairs, keyForm).value
    ensures r.Failure? && Scan(pairs, keyForm).Success? ==> r.error == ConfigParsingError
  {
    var store :- Scan(pairs, keyForm);
    if exists i :: 0 <= i < |pairs| && pairs[i].0 == "" then Failure(ConfigParsingError)
    else Success(store)
  }

  /** The headers are read exactly when no two keys normalise alike and no
      key is empty; a repeated key is reported before an empty one. */
  lemma ReadHeadersSucceedsIff(pairs: seq<(string, string)>, keyForm: KeyForm)
    ensures ReadHeaders(pairs, keyForm).Success?
            <==> DistinctKeys(pairs, keyForm) && forall i :: 0 <= i < |pairs| ==> pairs[i].0 != ""
    ensures !DistinctKeys(pairs, keyForm) ==> ReadHeaders(pairs, keyForm).error.DuplicateOptionError?
  {
    ScanStoresEveryPair(pairs, keyForm);
  }

  /** `headers.get(name, default)` on the header store. */
  function Lookup(store: map<string, string>, keyForm: KeyForm, name: string, default: string): string {
    if keyForm(name) in store then store[keyForm(name)] else default
  }

  /** What a lookup returns, in terms of the pairs read: the value of the
      pair whose key normalises like `name`, or the default when there is
      none. */
  lemma LookupOfPairs(pairs: seq<(string, string)>, keyForm: KeyForm, name: string, default: string)
    requires ReadHeaders(pairs, keyForm).Success?
    ensures (forall k :: 0 <= k < |pairs| ==> keyForm(pairs[k].0) != keyForm(name))
            ==> Lookup(ReadHeaders(pairs, keyForm).value, keyForm, name, default) == default
    ensures forall i :: 0 <= i < |pairs| && keyForm(pairs[i].0) == keyForm(name)
              ==> Lookup(ReadHeaders(pairs, keyForm).value, keyForm, name, default) == pairs[i].1
  {
    ScanStoresEveryPair(pairs, keyForm);
  }

  /** `data.strip('\r').split('\n')`. */
  function Lines(data: string): (lines: seq<string>)
    ensures |lines| >= 1
    ensures forall i :: 0 <= i < |lines| ==> '\n' !in lines[i]
  {
    SplitOn(Strip(data, {'\r'}), '\n')
  }

  /** The pairs of the leading header lines of a description. */
  function HeaderPairs(data: string): (pairs: seq<(string, string)>)
    ensures |pairs| == HeaderCount(Lines(data))
    ensures forall i :: 0 <= i < |pairs| ==> pairs[i] == HeaderPair(Lines(data)[i])
  {
    var lines := Lines(data);
    var head := lines[..HeaderCount(lines)];
    assert forall i :: 0 <= i < |head| ==> head[i] == lines[i];
    Pairs(head)
  }

  datatype Split = Split(headers: map<string, string>, body: string)

  /** `_split_message`: the store read from the leading header lines and the
      remaining lines joined with '\n'. Reading the store can raise. */
  function SplitMessage(data: string, keyForm: KeyForm): (r: Result<Split, Error>)
    ensures r.Success? <==> ReadHeaders(HeaderPairs(data), keyForm).Success?
    ensures r.Failure? ==> r.error == ReadHeaders(HeaderPairs(data), keyForm).error
    ensures r.Failure? ==> r.error.DuplicateOptionError? || r.error == ConfigParsingError
    ensures r.Success? ==> r.value.headers == ReadHeaders(HeaderPairs(data), keyForm).value
    ensures r.Success? ==> var lines := Lines(data); var n := HeaderCount(lines);
            && (n < |lines| ==> SplitOn(r.value.body, '\n') == lines[n..])
            && (n == |lines| ==> r.value.body == "")
  {
    var lines := Lines(data);
    var n := HeaderCount(lines);
    var store :- ReadHeaders(HeaderPairs(data), keyForm);
    if n < |lines| then SplitJoin(lines[n..], '\n'); Success(Split(store, Join(lines[n..], "\n")))
    else Success(Split(store, ""))
  }

  /** Each leading header line is stored, under its normalised key, with its
      value stripped of surrounding whitespace; no other key is stored. */
  lemma SplitStoresHeaderLines(data: string, keyForm: KeyForm)
    requires SplitMessage(data, keyForm).Success?
    ensures var lines := Lines(data); var n := HeaderCount(lines); var headers := SplitMessage(data, keyForm).value.headers;
            && headers.Keys == (set i | 0 <= i < n :: keyForm(KeyOf(lines[i])))
            && forall i :: 0 <= i < n ==> headers[keyForm(KeyOf(lines[i]))] == Strip(ValueOf(lines[i]), Whitespace)
  {
    StoreOfHeaderLines(Lines(data), HeaderCount(Lines(data)), HeaderPairs(data), keyForm,
                       SplitMessage(data, keyForm).value.headers);
  }

  lemma StoreOfHeaderLines(lines: seq<string>, n: nat, pairs: seq<(string, string)>, keyForm: KeyForm,
                           store: map<string, string>)
    requires n <= |lines| && |pairs| == n
    requires forall i :: 0 <= i < n ==> IsHeaderLine(lines[i]) && pairs[i] == HeaderPair(lines[i])
    requires Scan(pairs, keyForm) == Success(store)
    ensures store.Keys == (set i | 0 <= i < n :: keyForm(KeyOf(lines[i])))
    ensures forall i :: 0 <= i < n ==> store[keyForm(KeyOf(lines[i]))] == Strip(ValueOf(lines[i]), Whitespace)
  {
    ScanStoresEveryPair(pairs, keyForm);
    assert forall i :: 0 <= i < n ==> pairs[i].0 == KeyOf(lines[i]);
    assert (set i | 0 <= i < n :: keyForm(KeyOf(lines[i])))
           == (set i | 0 <= i < |pairs| :: keyForm(pairs[i].0));
  }

  /** Two leading header lines whose keys normalise alike make the split
      raise DuplicateOptionError, whatever follows. */
  lemma RepeatedHeaderRaises(data: string, keyForm: KeyForm, i: int, j: int)
    requires 0 <= i < j < HeaderCount(Lines(data))
    requires keyForm(KeyOf(Lines(data)[i])) == keyForm(KeyOf(Lines(data)[j]))
    ensures SplitMessage(data, keyForm).Failure?
    ensures SplitMessage(data, keyForm).error.DuplicateOptionError?
  {
    var pairs := HeaderPairs(data);
    assert keyForm(pairs[i].0) == keyForm(pairs[j].0);
    ReadHeadersSucceedsIff(pairs, keyForm);
  }

  /** A leading header line with an empty key (": value") makes the split
      raise, even when every key is distinct. */
  lemma EmptyHeaderKeyRaises(data: string, keyForm: KeyForm, i: int)
    requires 0 <= i < HeaderCount(Lines(data)) && KeyOf(Lines(data)[i]) == ""
    ensures SplitMessage(data, keyForm).Failure?
  {
    var pairs := HeaderPairs(data);
    assert pairs[i].0 == "";
    ReadHeadersSucceedsIff(pairs, keyForm);
  }

  /** A description whose first line is not a header has no headers and keeps
      its whole (carriage-return stripped) text as the body. */
  lemma NoHeaderKeepsText(data: string, keyForm: KeyForm)
    requires !IsHeaderLine(Lines(data)[0])
    ensures SplitMessage(data, keyForm) == Success(Split(map[], Strip(data, {'\r'})))
  {
    var lines := Lines(data);
    assert lines[0..] == lines;
    assert HeaderPairs(data) == [];
    assert Scan([], keyForm) == Success(map[]);
    JoinSplit(Strip(data, {'\r'}), '\n');
  }

  /** An empty description has no headers and an empty body. */
  lemma EmptyDescription(keyForm: KeyForm)
    ensures SplitMessage("", keyForm) == Success(Split(map[], ""))
  {
    assert Lines("") == [""];
    NoHeaderKeepsText("", keyForm);
  }
}

=== FILE: otrs.dfy ===
/** The `OtrsApi` backend: one ticket-creation request per event, built from
    hard-coded defaults, the `[otrs]` section and allow-listed event headers,
    then one client and session per request. */
module OtrsApi {
  import opened Wrappers
  import opened Errors
  import opened Config
  import opened MessageSplit
  import opened Text

  const DefaultQueue: string := "Queueebene1::Queueebene2"
  const DefaultState: string := "New"
  const DefaultPriority: string := "1 very low"
  const DefaultCustomUser: string := "root@localhost"

  /** The option keys the ticket is built from. */
  const OptionKeys: set<string> := {"title", "queue", "state", "priority", "customUser"}

  datatype Ticket = Ticket(title: string, queue: string, state: string, priority: string, customerUser: string)

  datatype Article = Article(subject: string, body: string)

  /** The (ticket, first article) pair `_prepare_event` returns. */
  datatype Request = Request(ticket: Ticket, article: Article)

  /** The backend's configuration: the `[otrs]` section, the `[headers]`
      allow-list when there is one, and the top-level `footer` entry that
      `_prepare_event` reads (the command line program never sets it).
      `otrsKey` is what `[otrs]` does to a key before looking it up: the
      configparser section the command line program passes lower-cases it
      (and stores the file's keys lower-cased), a plain dict leaves it as it
      is. */
  datatype OtrsConfig = OtrsConfig(otrs: Section, otrsKey: string -> string,
                                   headers: Option<HeaderPolicy>, topFooter: Option<string>)

  /** The options before any header is applied: the summary as title and the
      four ticket settings from the `[otrs]` section or their defaults. */
  function BaseOptions(summary: string, otrs: Section, otrsKey: string -> string): (options: map<string, string>)
    ensures options.Keys == OptionKeys
    ensures options["title"] == summary
    ensures options["queue"] == (if otrsKey("queue") in otrs then otrs[otrsKey("queue")] else DefaultQueue)
    ensures options["state"] == (if otrsKey("state") in otrs then otrs[otrsKey("state")] else DefaultState)
    ensures options["priority"] == (if otrsKey("priority") in otrs then otrs[otrsKey("priority")] else DefaultPriority)
    ensures options["customUser"] == (if otrsKey("customUser") in otrs then otrs[otrsKey("customUser")]
                                      else DefaultCustomUser)
  {
    map["title" := summary,
        "queue" := GetOr(otrs, otrsKey("queue"), DefaultQueue),
        "state" := GetOr(otrs, otrsKey("state"), DefaultState),
        "priority" := GetOr(otrs, otrsKey("priority"), DefaultPriority),
        "customUser" := GetOr(otrs, otrsKey("customUser"), DefaultCustomUser)]
  }

  /** Each allow-listed header in turn overwrites the option of the same name
      with the event's value, or with the configured default. */
  function OverlayOptions(options: map<string, string>, policy: HeaderPolicy, store: map<string, string>,
                          keyForm: KeyForm): (r: map<string, string>)
    ensures r.Keys == options.Keys + Names(policy)
    decreases |policy|
  {
    if |policy| == 0 then options
    else
      var init := policy[..|policy| - 1];
      var h := policy[|policy| - 1];
      NamesOfPrefix(policy);
      OverlayOptions(options, init, store, keyForm)[h.name := Lookup(store, keyForm, h.name, h.default)]
  }

  /** An allow-listed header's option holds the event's value for it, or the
      configured default, as set by the last entry of that name. */
  lemma {:induction false} OverlayLastEntryWins(options: map<string, string>, policy: HeaderPolicy,
                                               store: map<string, string>, keyForm: KeyForm, j: int)
    requires 0 <= j < |policy|
    requires forall k :: j < k < |policy| ==> policy[k].name != policy[j].name
    ensures OverlayOptions(options, policy, store, keyForm)[policy[j].name]
            == Lookup(store, keyForm, policy[j].name, policy[j].default)
    decreases |policy|
  {
    var init := policy[..|policy| - 1];
    if j < |policy| - 1 {
      assert forall k :: 0 <= k < |init| ==> init[k] == policy[k];
      OverlayLastEntryWins(options, init, store, keyForm, j);
    }
  }

  /** Options no allow-listed header names keep their value. */
  lemma {:induction false} OverlayKeepsOthers(options: map<string, string>, policy: HeaderPolicy,
                                             store: map<string, string>, keyForm: KeyForm, key: string)
    requires key in options && key !in Names(policy)
    ensures OverlayOptions(options, policy, store, keyForm)[key] == options[key]
    decreases |policy|
  {
    if |policy| > 0 {
      var init := policy[..|policy| - 1];
      NamesOfPrefix(policy);
      OverlayKeepsOthers(options, init, store, keyForm, key);
    }
  }

  /** The options of one event; headers apply only when the configuration has
      a `[headers]` section. */
  function Options(cfg: OtrsConfig, summary: string, store: map<string, string>, keyForm: KeyForm): (r: map<string, string>)
    ensures OptionKeys <= r.Keys
  {
    OverlayOptions(BaseOptions(summary, cfg.otrs, cfg.otrsKey), cfg.headers.GetOr([]), store, keyForm)
  }

  /** Every ticket argument is non-empty. */
  predicate Complete(options: map<string, string>)
    requires OptionKeys <= options.Keys
  {
    forall k :: k in OptionKeys ==> options[k] != ""
  }

  /** `pyotrs.Ticket.create_basic`: Title, Queue, State, Priority and
      CustomerUser are each required, and checked in that order; an empty one
      raises ArgumentMissingError. */
  function CreateBasic(options: map<string, string>): (r: Result<Ticket, Error>)
    requires OptionKeys <= options.Keys
    ensures r.Success? <==> Complete(options)
    ensures options["title"] == "" ==> r == Failure(ArgumentMissingError("Title"))
    ensures r.Failure? ==> r.error.ArgumentMissingError?
    ensures r.Success? ==> r.value == Ticket(options["title"], options["queue"], options["state"],
                                             options["priority"], options["customUser"])
  {
    if options["title"] == "" then Failure(ArgumentMissingError("Title"))
    else if options["queue"] == "" then Failure(ArgumentMissingError("Queue"))
    else if options["state"] == "" then Failure(ArgumentMissingError("State"))
    else if options["priority"] == "" then Failure(ArgumentMissingError("Priority"))
    else if options["customUser"] == "" then Failure(ArgumentMissingError("CustomerUser"))
    else Success(Ticket(options["title"], options["queue"], options["state"], options["priority"], options["customUser"]))
  }

  /** The ticket and article built from the options: the title is also the
      article subject, and the article body is the text, a blank line and the
      footer. */
  function MakeRequest(options: map<string, string>, text: string, footer: string): (r: Result<Request, Error>)
    requires OptionKeys <= options.Keys
    ensures r.Success? <==> Complete(options)
    ensures r.Success? ==> r.value.article.subject == r.value.ticket.title == options["title"]
    ensures r.Success? ==> r.value.article.body == text + "\n\n" + footer
  {
    var ticket :- CreateBasic(options);
    Success(Request(ticket, Article(options["title"], text + "\n\n" + footer)))
  }

  /** The footer as `_prepare_event` reads it: from the top level of the
      configuration, where the command line program never puts one. */
  function FooterAsWritten(cfg: OtrsConfig): string {
    cfg.topFooter.GetOr("")
  }

  /** The footer as evidently intended: the `footer` key of `[otrs]`. */
  function Footer(cfg: OtrsConfig): string {
    GetOr(cfg.otrs, cfg.otrsKey("footer"), "")
  }

  /** `_prepare_event` as written. A missing summary raises KeyError, an empty
      ticket argument ArgumentMissingError. */
  function PrepareAsWritten(cfg: OtrsConfig, store: map<string, string>, keyForm: KeyForm, text: string,
                            summary: Option<string>): (r: Result<Request, Error>)
    ensures r.Success? <==> summary.Some? && Complete(Options(cfg, summary.value, store, keyForm))
    ensures summary.None? ==> r == Failure(KeyError("summary"))
    ensures summary.Some? && r.Failure? ==> r.error.ArgumentMissingError?
    ensures r.Success? ==> r.value.article.body == text + "\n\n" + cfg.topFooter.GetOr("")
    ensures r.Success? ==> r.value.article.subject == r.value.ticket.title
  {
    if summary.None? then Failure(KeyError("summary"))
    else MakeRequest(Options(cfg, summary.value, store, keyForm), text, FooterAsWritten(cfg))
  }

  /** `_prepare_event` with the footer taken from `[otrs]`. */
  function Prepare(cfg: OtrsConfig, store: map<string, string>, keyForm: KeyForm, text: string,
                   summary: Option<string>): (r: Result<Request, Error>)
    ensures r.Success? <==> summary.Some? && Complete(Options(cfg, summary.value, store, keyForm))
    ensures summary.None? ==> r == Failure(KeyError("summary"))
    ensures summary.Some? && r.Failure? ==> r.error.ArgumentMissingError?
    ensures r.Success? ==> r.value.article.body == text + "\n\n" + GetOr(cfg.otrs, cfg.otrsKey("footer"), "")
    ensures r.Success? ==> r.value.article.subject == r.value.ticket.title
  {
    if summary.None? then Failure(KeyError("summary"))
    else MakeRequest(Options(cfg, summary.value, store, keyForm), text, Footer(cfg))
  }

  /** Unless the allow-list names `title`, the ticket title is the summary. */
  lemma TitleIsSummary(cfg: OtrsConfig, store: map<string, string>, keyForm: KeyForm, summary: string)
    requires "title" !in Names(cfg.headers.GetOr([]))
    ensures Options(cfg, summary, store, keyForm)["title"] == summary
  {
    OverlayKeepsOthers(BaseOptions(summary, cfg.otrs, cfg.otrsKey), cfg.headers.GetOr([]), store, keyForm, "title");
  }

  /** So an event with an empty summary gets no ticket: the empty title is
      refused, before any session is opened. */
  lemma EmptySummaryMissesTitle(cfg: OtrsConfig, store: map<string, string>, keyForm: KeyForm, text: string)
    requires "title" !in Names(cfg.headers.GetOr([]))
    ensures PrepareAsWritten(cfg, store, keyForm, text, Some("")) == Failure(ArgumentMissingError("Title"))
  {
    TitleIsSummary(cfg, store, keyForm, "");
  }

  /** The counterexample: a configuration as the command line program builds
      it (no top-level footer) with `footer` in `[otrs]`; the code as written
      leaves the footer out of the article, the intended one appends it. */
  lemma FooterIsIgnored(otrs: Section, otrsKey: string -> string, headers: Option<HeaderPolicy>,
                        store: map<string, string>, keyForm: KeyForm, text: string, summary: string)
    requires otrsKey("footer") in otrs && otrs[otrsKey("footer")] != ""
    requires Complete(Options(OtrsConfig(otrs, otrsKey, headers, None), summary, store, keyForm))
    ensures var cfg := OtrsConfig(otrs, otrsKey, headers, None);
            && PrepareAsWritten(cfg, store, keyForm, text, Some(summary)).value.article.body == text + "\n\n"
            && Prepare(cfg, store, keyForm, text, Some(summary)).value.article.body
               == text + "\n\n" + otrs[otrsKey("footer")]
            && PrepareAsWritten(cfg, store, keyForm, text, Some(summary)) != Prepare(cfg, store, keyForm, text, Some(summary))
  {
    var cfg := OtrsConfig(otrs, otrsKey, headers, None);
    var a := PrepareAsWritten(cfg, store, keyForm, text, Some(summary)).value.article.body;
    var b := Prepare(cfg, store, keyForm, text, Some(summary)).value.article.body;
    assert |a| < |b|;
  }

  /** A ticket setting that no allow-listed header names comes from `[otrs]`,
      or from the hard-coded default when `[otrs]` lacks it. */
  lemma SettingFromConfigOrDefault(cfg: OtrsConfig, store: map<string, string>, keyForm: KeyForm, summary: string,
                                   key: string, default: string)
    requires (key, default) in {("queue", DefaultQueue), ("state", DefaultState),
                                ("priority", DefaultPriority), ("customUser", DefaultCustomUser)}
    requires key !in Names(cfg.headers.GetOr([]))
    ensures Options(cfg, summary, store, keyForm)[key] == GetOr(cfg.otrs, cfg.otrsKey(key), default)
  {
    OverlayKeepsOthers(BaseOptions(summary, cfg.otrs, cfg.otrsKey), cfg.headers.GetOr([]), store, keyForm, key);
  }

  /** Read from the command line program's configparser section, a setting
      written with capitals in the file is found: `customUser = Tom` is
      stored as `customuser`, and the lookup of `customUser` lower-cases its
      key too. */
  lemma ConfiguredCustomUserIsFound(summary: string, user: string)
    ensures BaseOptions(summary, map["customuser" := user], AsciiLower)["customUser"] == user
  {
    assert AsciiLower("customUser") == "customuser";
  }

  /** So an empty `customUser =` in the file stops the ticket at the check of
      its customer user. */
  lemma EmptyConfiguredCustomUserIsMissing(summary: string, store: map<string, string>, keyForm: KeyForm,
                                           text: string)
    requires summary != ""
    ensures var cfg := OtrsConfig(map["customuser" := ""], AsciiLower, None, None);
            PrepareAsWritten(cfg, store, keyForm, text, Some(summary)) == Failure(ArgumentMissingError("CustomerUser"))
  {
    var cfg := OtrsConfig(map["customuser" := ""], AsciiLower, None, None);
    ConfiguredCustomUserIsFound(summary, "");
    assert AsciiLower("queue") == "queue";
    assert AsciiLower("state") == "state";
    assert AsciiLower("priority") == "priority";
    assert Options(cfg, summary, store, keyForm) == BaseOptions(summary, cfg.otrs, AsciiLower);
  }

  /** An allow-listed header overrides the setting of the same name: with the
      event's header value when the event has one, with the configured default
      otherwise. */
  lemma HeaderOverridesSetting(cfg: OtrsConfig, store: map<string, string>, keyForm: KeyForm, summary: string, j: int)
    requires cfg.headers.Some? && 0 <= j < |cfg.headers.value|
    requires DistinctNames(cfg.headers.value)
    ensures var h := cfg.headers.value[j];
            Options(cfg, summary, store, keyForm)[h.name]
              == if keyForm(h.name) in store then store[keyForm(h.name)] else h.default
  {
    var policy := cfg.headers.value;
    forall k | j < k < |policy|
      ensures policy[k].name != policy[j].name
    {
      assert !SameName(policy[j].name, policy[k].name);
    }
    OverlayLastEntryWins(BaseOptions(summary, cfg.otrs, cfg.otrsKey), policy, store, keyForm, j);
  }

  /** The three layers on one example: the `[otrs]` values, then a
      `[headers]` default for `queue`, then the event's own `queue` header. */
  lemma ConfigThenHeaderDefaultThenEventHeader(keyForm: KeyForm, summary: string)
    requires summary != ""
    ensures var otrs := map["queue" := "q1:q2", "tickettitel" := "Title", "priority" := "high", "customUser" := "Tom"];
            && Prepare(OtrsConfig(otrs, s => s, None, None), map[], keyForm, "", Some(summary))
               == Success(Request(Ticket(summary, "q1:q2", DefaultState, "high", "Tom"), Article(summary, "\n\n")))
            && Prepare(OtrsConfig(otrs, s => s, Some([ConfigHeader("queue", "q3:q4")]), None), map[], keyForm, "", Some(summary))
               == Success(Request(Ticket(summary, "q3:q4", DefaultState, "high", "Tom"), Article(summary, "\n\n")))
            && Prepare(OtrsConfig(otrs, s => s, Some([ConfigHeader("queue", "q3:q4")]), None),
                       map[keyForm("queue") := "q5:q6"], keyForm, "", Some(summary))
               == Success(Request(Ticket(summary, "q5:q6", DefaultState, "high", "Tom"), Article(summary, "\n\n")))
  {
    var otrs := map["queue" := "q1:q2", "tickettitel" := "Title", "priority" := "high", "customUser" := "Tom"];
    var base := BaseOptions(summary, otrs, s => s);
    assert "state" !in otrs;
    assert base == map["title" := summary, "queue" := "q1:q2", "state" := DefaultState,
                       "priority" := "high", "customUser" := "Tom"];
    assert "" + "\n\n" + "" == "\n\n";
    var policy := [ConfigHeader("queue", "q3:q4")];
    assert policy[..0] == [];
    assert OverlayOptions(base, policy, map[], keyForm) == base["queue" := "q3:q4"];
    assert OverlayOptions(base, policy, map[keyForm("queue") := "q5:q6"], keyForm) == base["queue" := "q5:q6"];
  }

  /** What `_perform_action` does. */
  datatype OtrsEffect =
    | LogRequest(req: Request)
    | NewClient(server: string, username: string, password: string)
    | SessionCreate
    | TicketCreate(req: Request)

  function Logs(reqs: seq<Request>): (r: seq<OtrsEffect>)
    ensures |r| == |reqs|
    ensures forall i :: 0 <= i < |reqs| ==> r[i] == LogRequest(reqs[i])
  {
    if |reqs| == 0 then [] else [LogRequest(reqs[0])] + Logs(reqs[1..])
  }

  /** A client for the configured server, and the attempt to open a session. */
  function Open(otrs: Section): seq<OtrsEffect>
    requires "server" in otrs && "username" in otrs && "password" in otrs
  {
    [NewClient(otrs["server"], otrs["username"], otrs["password"]), SessionCreate]
  }

  /** The effects of one request whose session opened. */
  function Created(otrs: Section, req: Request): seq<OtrsEffect>
    requires "server" in otrs && "username" in otrs && "password" in otrs
  {
    Open(otrs) + [TicketCreate(req)]
  }

  function CreatedAll(otrs: Section, reqs: seq<Request>): seq<OtrsEffect>
    requires "server" in otrs && "username" in otrs && "password" in otrs
  {
    if |reqs| == 0 then [] else Created(otrs, reqs[0]) + CreatedAll(otrs, reqs[1..])
  }

  /** `_perform_action` from request `i` on. `sessionOk(i)` says whether the
      session opened for request `i` comes up. */
  function PerformFrom(otrs: Section, reqs: seq<Request>, i: nat, dryRun: bool, sessionOk: nat -> bool): Outcome<OtrsEffect>
    requires i <= |reqs|
    decreases |reqs| - i
  {
    if i == |reqs| then Outcome([], Returned(Some(true)))
    else if dryRun then
      var rest := PerformFrom(otrs, reqs, i + 1, dryRun, sessionOk);
      Outcome([LogRequest(reqs[i])] + rest.effects, rest.status)
    else if "server" !in otrs then Outcome([], Raised(KeyError("server")))
    else if "username" !in otrs then Outcome([], Raised(KeyError("username")))
    else if "password" !in otrs then Outcome([], Raised(KeyError("password")))
    else
      if !sessionOk(i) then Outcome(Open(otrs), Returned(Some(false)))
      else
        var rest := PerformFrom(otrs, reqs, i + 1, dryRun, sessionOk);
        Outcome(Open(otrs) + [TicketCreate(reqs[i])] + rest.effects, rest.status)
  }

  /** `_perform_action`: a client and a session per request; a session that
      does not open ends the batch with `False`. */
  function Perform(otrs: Section, reqs: seq<Request>, dryRun: bool, sessionOk: nat -> bool): Outcome<OtrsEffect> {
    PerformFrom(otrs, reqs, 0, dryRun, sessionOk)
  }

  /** A dry run logs every request, in order, and contacts no server. */
  lemma {:induction false} DryRunOnlyLogs(otrs: Section, reqs: seq<Request>, i: nat, sessionOk: nat -> bool)
    requires i <= |reqs|
    ensures PerformFrom(otrs, reqs, i, true, sessionOk) == Outcome(Logs(reqs[i..]), Returned(Some(true)))
    decreases |reqs| - i
  {
    if i < |reqs| {
      DryRunOnlyLogs(otrs, reqs, i + 1, sessionOk);
      assert reqs[i..] == [reqs[i]] + reqs[i + 1..];
    }
  }

  /** The number of requests whose session opens before the first one that
      does not. */
  function SessionsUp(reqs: seq<Request>, i: nat, sessionOk: nat -> bool): (k: nat)
    requires i <= |reqs|
    ensures i <= k <= |reqs|
    ensures forall j :: i <= j < k ==> sessionOk(j)
    ensures k < |reqs| ==> !sessionOk(k)
    decreases |reqs| - i
  {
    if i == |reqs| || !sessionOk(i) then i else SessionsUp(reqs, i + 1, sessionOk)
  }

  /** Outside a dry run, tickets are created for exactly the requests before
      the first session that fails to open, in order; that failure ends the
      batch with `False` and nothing after it is attempted. Without a failure
      the batch returns `True`. */
  lemma {:induction false} StopsAtFirstFailedSession(otrs: Section, reqs: seq<Request>, i: nat, sessionOk: nat -> bool)
    requires i <= |reqs|
    requires "server" in otrs && "username" in otrs && "password" in otrs
    ensures var k := SessionsUp(reqs, i, sessionOk);
            var o := PerformFrom(otrs, reqs, i, false, sessionOk);
            && o.effects == CreatedAll(otrs, reqs[i..k])
                            + (if k < |reqs| then Open(otrs) else [])
            && o.status == Returned(Some(k == |reqs|))
    decreases |reqs| - i
  {
    if i < |reqs| {
      if sessionOk(i) {
        StopsAtFirstFailedSession(otrs, reqs, i + 1, sessionOk);
        var k := SessionsUp(reqs, i + 1, sessionOk);
        var rest := PerformFrom(otrs, reqs, i + 1, false, sessionOk);
        var tail := if k < |reqs| then Open(otrs) else [];
        PerformOpened(otrs, reqs, i, sessionOk);
        CreatedAllCons(otrs, reqs, i, k);
        assert Created(otrs, reqs[i]) + (CreatedAll(otrs, reqs[i + 1..k]) + tail)
               == (Created(otrs, reqs[i]) + CreatedAll(otrs, reqs[i + 1..k])) + tail;
      } else {
        assert reqs[i..i] == [];
      }
    }
  }

  /** A request whose session opens creates its ticket, and the batch goes on. */
  lemma PerformOpened(otrs: Section, reqs: seq<Request>, i: nat, sessionOk: nat -> bool)
    requires "server" in otrs && "username" in otrs && "password" in otrs
    requires i < |reqs| && sessionOk(i)
    ensures var rest := PerformFrom(otrs, reqs, i + 1, false, sessionOk);
            PerformFrom(otrs, reqs, i, false, sessionOk) == Outcome(Created(otrs, reqs[i]) + rest.effects, rest.status)
  {
  }

  lemma CreatedAllCons(otrs: Section, reqs: seq<Request>, i: nat, k: nat)
    requires "server" in otrs && "username" in otrs && "password" in otrs
    requires i < k <= |reqs|
    ensures CreatedAll(otrs, reqs[i..k]) == Created(otrs, reqs[i]) + CreatedAll(otrs, reqs[i + 1..k])
  {
    assert reqs[i..k][0] == reqs[i] && reqs[i..k][1..] == reqs[i + 1..k];
  }

  /** A first session that does not open ends the batch at once: one client,
      one session attempt, no ticket, and `False`. */
  lemma FirstSessionFails(otrs: Section, reqs: seq<Request>, sessionOk: nat -> bool)
    requires "server" in otrs && "username" in otrs && "password" in otrs
    requires |reqs| > 0 && !sessionOk(0)
    ensures Perform(otrs, reqs, false, sessionOk)
            == Outcome([NewClient(otrs["server"], otrs["username"], otrs["password"]), SessionCreate], Returned(Some(false)))
  {
  }
}

=== FILE: plan.dfy ===
/** `Wartungsplan`: the time window of a run, the events the calendar has in
    it, and the hand-over of those events to the backend. */
module Plan {
  import opened Wrappers
  import opened Errors
  import opened Backends

  /** A time window, in wall-clock seconds before time-zone conversion. */
  datatype Window = Window(start: int, end: int)

  /** `datetime.timedelta(1)`: one day. */
  const OneDay: int := 86400

  /** A command-line date counts as given when it is present and not empty
      (`if not start_date` treats None and "" alike). */
  predicate Given(arg: Option<string>) {
    arg.Some? && arg.value != ""
  }

  /** Parses a given date, or raises the parser's error. */
  function ParseGiven(arg: string, parse: string -> Option<int>): (r: Result<int, Error>)
    ensures r.Success? <==> parse(arg).Some?
    ensures r.Success? ==> r.value == parse(arg).value
    ensures r.Failure? ==> r.error == ParseError(arg)
  {
    match parse(arg)
    case Some(t) => Success(t)
    case None => Failure(ParseError(arg))
  }

  /** The window defaulting of `Wartungsplan.__init__`. The start is parsed
      first; a missing start is `now`, a missing end is the start plus one
      day. Nothing checks that the end comes after the start. */
  function ResolveWindow(startArg: Option<string>, endArg: Option<string>, now: int,
                         parse: string -> Option<int>): (r: Result<Window, Error>)
    ensures r.Success? <==> (Given(startArg) ==> parse(startArg.value).Some?)
                            && (Given(endArg) ==> parse(endArg.value).Some?)
    ensures Given(startArg) && parse(startArg.value).None? ==> r == Failure(ParseError(startArg.value))
    ensures (Given(startArg) ==> parse(startArg.value).Some?) && Given(endArg) && parse(endArg.value).None?
            ==> r == Failure(ParseError(endArg.value))
  {
    var start :- if Given(startArg) then ParseGiven(startArg.value, parse) else Success(now);
    var end :- if Given(endArg) then ParseGiven(endArg.value, parse) else Success(start + OneDay);
    Success(Window(start, end))
  }

  /** Without arguments the window is the day that starts now. */
  lemma NoArgumentsGiveOneDayFromNow(now: int, parse: string -> Option<int>)
    ensures ResolveWindow(None, None, now, parse) == Success(Window(now, now + OneDay))
    ensures ResolveWindow(Some(""), Some(""), now, parse) == Success(Window(now, now + OneDay))
  {
  }

  /** The start is the parsed argument when one is given and `now` otherwise;
      the end is the parsed argument when one is given and one day after the
      start otherwise, whether the start was given or not. */
  lemma WindowDefaults(startArg: Option<string>, endArg: Option<string>, now: int, parse: string -> Option<int>)
    requires ResolveWindow(startArg, endArg, now, parse).Success?
    ensures var w := ResolveWindow(startArg, endArg, now, parse).value;
            && (Given(startArg) ==> w.start == parse(startArg.value).value)
            && (!Given(startArg) ==> w.start == now)
            && (Given(endArg) ==> w.end == parse(endArg.value).value)
            && (!Given(endArg) ==> w.end == w.start + OneDay)
  {
  }

  /** An empty argument counts as a missing one, for either date. */
  lemma EmptyArgumentIsMissing(startArg: Option<string>, endArg: Option<string>, now: int,
                               parse: string -> Option<int>)
    ensures ResolveWindow(Some(""), endArg, now, parse) == ResolveWindow(None, endArg, now, parse)
    ensures ResolveWindow(startArg, Some(""), now, parse) == ResolveWindow(startArg, None, now, parse)
  {
  }

  /** `now` matters only when the start is missing: with a given start the
      window is the same at any time. */
  lemma GivenStartIgnoresNow(startArg: Option<string>, endArg: Option<string>, now1: int, now2: int,
                             parse: string -> Option<int>)
    requires Given(startArg)
    ensures ResolveWindow(startArg, endArg, now1, parse) == ResolveWindow(startArg, endArg, now2, parse)
  {
  }

  /** Without a given end the window is exactly one day long; with both
      dates given, its length is whatever the parser makes of them. */
  lemma MissingEndGivesOneDay(startArg: Option<string>, endArg: Option<string>, now: int,
                              parse: string -> Option<int>)
    requires !Given(endArg)
    requires Given(startArg) ==> parse(startArg.value).Some?
    ensures ResolveWindow(startArg, endArg, now, parse).Success?
    ensures var w := ResolveWindow(startArg, endArg, now, parse).value;
            w.end - w.start == OneDay
  {
  }

  /** A given end that lies before the start is taken as it is. */
  lemma ReversedWindowIsAccepted(startArg: string, endArg: string, now: int, parse: string -> Option<int>)
    requires startArg != "" && endArg != ""
    requires parse(startArg).Some? && parse(endArg).Some?
    requires parse(endArg).value < parse(startArg).value
    ensures ResolveWindow(Some(startArg), Some(endArg), now, parse).Success?
    ensures ResolveWindow(Some(startArg), Some(endArg), now, parse).value.end
            < ResolveWindow(Some(startArg), Some(endArg), now, parse).value.start
  {
  }

  /** The state of a plan: its window, the expanded events and the backend. */
  datatype Wartungsplan = Wartungsplan(window: Window, events: seq<Event>, backend: Backend)

  /** `Wartungsplan(start_date, end_date, calendar, backend)`. The calendar's
      recurrence expansion over a window is the parameter `expand`. */
  function NewPlan(startArg: Option<string>, endArg: Option<string>, now: int,
                   parse: string -> Option<int>, expand: (int, int) -> seq<Event>,
                   backend: Backend): (r: Result<Wartungsplan, Error>)
    ensures r.Success? <==> ResolveWindow(startArg, endArg, now, parse).Success?
    ensures r.Success? ==> && r.value.window == ResolveWindow(startArg, endArg, now, parse).value
                           && r.value.events == expand(r.value.window.start, r.value.window.end)
                           && r.value.backend == backend
  {
    var w :- ResolveWindow(startArg, endArg, now, parse);
    Success(Wartungsplan(w, expand(w.start, w.end), backend))
  }

  /** `run_backend`: the backend acts once on all events of the window. */
  function RunBackend(plan: Wartungsplan, dryRun: bool, env: Env): Outcome<Effect> {
    Act(plan.backend, plan.events, dryRun, env)
  }

  /** A default run of the list backend prints one record for each event of
      the day that starts now, in the order the expansion gives them. */
  lemma DefaultListRun(now: int, parse: string -> Option<int>, expand: (int, int) -> seq<Event>,
                       dryRun: bool, env: Env)
    requires AllSplit(expand(now, now + OneDay), env.keyForm)
    ensures var p := NewPlan(None, None, now, parse, expand, ListStdout);
            && p.Success?
            && var o := RunBackend(p.value, dryRun, env);
               && |o.effects| == |expand(now, now + OneDay)|
               && forall i :: 0 <= i < |o.effects| ==>
                    o.effects[i] == Stdout(ListRecord(expand(now, now + OneDay)[i], env.show))
  {
    NoArgumentsGiveOneDayFromNow(now, parse);
    var p := NewPlan(None, None, now, parse, expand, ListStdout);
    assert p.value == Wartungsplan(Window(now, now + OneDay), expand(now, now + OneDay), ListStdout);
    ListPrintsOneRecordPerEvent(p.value.events, dryRun, env);
  }
}

=== FILE: text.dfy ===
/** Python string operations the core relies on, for one-character separators:
    `str.split(sep)`, `sep.join(parts)`, `str.strip(ch)` and ASCII `str.lower()`. */
module Text {

  /** `s.split(sep)`: the pieces between the occurrences of `sep`, always at
      least one (the empty string splits into `[""]`). */
  function SplitOn(s: string, sep: char): (parts: seq<string>)
    ensures |parts| >= 1
    ensures forall i :: 0 <= i < |parts| ==> sep !in parts[i]
  {
    if |s| == 0 then [""]
    else
      var rest := SplitOn(s[1..], sep);
      assert s == [s[0]] + s[1..];
      if s[0] == sep then [""] + rest
      else [[s[0]] + rest[0]] + rest[1..]
  }

  /** `sep.join(parts)`. */
  function Join(parts: seq<string>, sep: string): string
  {
    if |parts| == 0 then ""
    else if |parts| == 1 then parts[0]
    else parts[0] + sep + Join(parts[1..], sep)
  }

  /** There is one piece more than there are separators. */
  lemma {:induction false} SplitCount(s: string, sep: char)
    ensures |SplitOn(s, sep)| == multiset(s)[sep] + 1
  {
    if |s| > 0 {
      SplitCount(s[1..], sep);
      assert s == [s[0]] + s[1..];
      assert multiset(s) == multiset{s[0]} + multiset(s[1..]);
    }
  }

  /** Joining the pieces of a split with the separator gives back the string. */
  lemma {:induction false} JoinSplit(s: string, sep: char)
    ensures Join(SplitOn(s, sep), [sep]) == s
  {
    if |s| > 0 {
      var rest := SplitOn(s[1..], sep);
      JoinSplit(s[1..], sep);
      if s[0] == sep {
        assert ([""] + rest)[1..] == rest;
      } else {
        var parts := [[s[0]] + rest[0]] + rest[1..];
        assert parts[1..] == rest[1..];
        if |rest| == 1 {
          assert Join(rest, [sep]) == rest[0];
        } else {
          assert Join(rest, [sep]) == rest[0] + [sep] + Join(rest[1..], [sep]);
        }
      }
    }
  }

  lemma {:induction false} SplitWithoutSeparator(s: string, sep: char)
    requires sep !in s
    ensures SplitOn(s, sep) == [s]
  {
    if |s| > 0 {
      SplitWithoutSeparator(s[1..], sep);
      assert [s[0]] + s[1..] == s;
    }
  }

  lemma {:induction false} SplitAtSeparator(a: string, sep: char, b: string)
    requires sep !in a
    ensures SplitOn(a + [sep] + b, sep) == [a] + SplitOn(b, sep)
  {
    var s := a + [sep] + b;
    if |a| == 0 {
      assert s[1..] == b;
    } else {
      assert s[1..] == a[1..] + [sep] + b;
      SplitAtSeparator(a[1..], sep, b);
      assert [a[0]] + a[1..] == a;
    }
  }

  /** Splitting a join of separator-free pieces gives back the pieces. */
  lemma {:induction false} SplitJoin(parts: seq<string>, sep: char)
    requires |parts| >= 1
    requires forall i :: 0 <= i < |parts| ==> sep !in parts[i]
    ensures SplitOn(Join(parts, [sep]), sep) == parts
  {
    if |parts| == 1 {
      SplitWithoutSeparator(parts[0], sep);
    } else {
      SplitJoin(parts[1..], sep);
      SplitAtSeparator(parts[0], sep, Join(parts[1..], [sep]));
      assert [parts[0]] + parts[1..] == parts;
    }
  }

  /** A string that starts with the separator splits into an empty first piece. */
  lemma SplitLeadingSeparator(s: string, sep: char)
    requires |s| > 0 && s[0] == sep
    ensures SplitOn(s, sep)[0] == ""
  {
  }

  /** A string that ends with the separator splits into an empty last piece. */
  lemma {:induction false} SplitTrailingSeparator(s: string, sep: char)
    requires |s| > 0 && s[|s| - 1] == sep
    ensures SplitOn(s, sep)[|SplitOn(s, sep)| - 1] == ""
  {
    if |s| == 1 {
      assert s[1..] == "";
    } else {
      SplitTrailingSeparator(s[1..], sep);
      assert s[1..][|s| - 2] == sep;
      SplitCount(s[1..], sep);
      assert sep in multiset(s[1..]);
    }
  }

  /** Two separators in a row leave an empty piece between them, never the
      first one. */
  lemma {:induction false} SplitDoubleSeparator(s: string, sep: char, i: int)
    requires 0 <= i && i + 1 < |s| && s[i] == sep && s[i + 1] == sep
    ensures exists k :: 1 <= k < |SplitOn(s, sep)| && SplitOn(s, sep)[k] == ""
  {
    var rest := SplitOn(s[1..], sep);
    if i == 0 {
      SplitLeadingSeparator(s[1..], sep);
      assert SplitOn(s, sep)[1] == "";
    } else {
      SplitDoubleSeparator(s[1..], sep, i - 1);
      var k :| 1 <= k < |rest| && rest[k] == "";
      if s[0] == sep {
        assert SplitOn(s, sep)[k + 1] == "";
      } else {
        assert SplitOn(s, sep)[k] == "";
      }
    }
  }

  /** Joining one more piece appends the separator and that piece. */
  lemma JoinAppend(parts: seq<string>, last: string, sep: string)
    requires |parts| >= 1
    ensures Join(parts + [last], sep) == Join(parts, sep) + sep + last
    decreases |parts|
  {
    if |parts| == 1 {
      assert (parts + [last])[1..] == [last];
    } else {
      assert (parts + [last])[1..] == parts[1..] + [last];
      JoinAppend(parts[1..], last, sep);
    }
  }

  /** The length of the leading run of characters from `chars`. */
  function LeadLength(s: string, chars: set<char>): (n: nat)
    ensures n <= |s|
    ensures forall k :: 0 <= k < n ==> s[k] in chars
    ensures n < |s| ==> s[n] !in chars
  {
    if |s| > 0 && s[0] in chars then
      var m := LeadLength(s[1..], chars);
      assert forall k :: 1 <= k < m + 1 ==> s[k] == s[1..][k - 1];
      m + 1
    else 0
  }

  /** Where the trailing run of characters from `chars` starts, looking no
      further left than `lo`. */
  function TrailStart(s: string, chars: set<char>, lo: nat, hi: nat): (e: nat)
    requires lo <= hi <= |s|
    ensures lo <= e <= hi
    ensures forall k :: e <= k < hi ==> s[k] in chars
    ensures e > lo ==> s[e - 1] !in chars
    decreases hi
  {
    if hi > lo && s[hi - 1] in chars then TrailStart(s, chars, lo, hi - 1) else hi
  }

  /** `r` is the slice of `s` starting at `i` and everything outside it is in
      `chars`. */
  ghost predicate TrimmedAt(s: string, chars: set<char>, r: string, i: int) {
    && 0 <= i <= |s| - |r|
    && r == s[i..i + |r|]
    && (forall k :: 0 <= k < i ==> s[k] in chars)
    && (forall k :: i + |r| <= k < |s| ==> s[k] in chars)
  }

  /** `s.strip(chars)`: `s` without its leading and trailing runs of
      characters from `chars`. */
  function Strip(s: string, chars: set<char>): (r: string)
    ensures exists i :: TrimmedAt(s, chars, r, i)
    ensures |r| > 0 ==> r[0] !in chars && r[|r| - 1] !in chars
  {
    var lo := LeadLength(s, chars);
    var hi := TrailStart(s, chars, lo, |s|);
    assert TrimmedAt(s, chars, s[lo..hi], lo);
    s[lo..hi]
  }

  lemma StripWithoutChars(s: string, chars: set<char>)
    requires forall k :: 0 <= k < |s| ==> s[k] !in chars
    ensures Strip(s, chars) == s
  {
  }

  /** The characters `str.splitlines` breaks a line at; "\r\n" is one break. */
  const LineBreaks: set<char> :=
    {'\n', '\r', '\U{0B}', '\U{0C}', '\U{1C}', '\U{1D}', '\U{1E}', '\U{85}', '\U{2028}', '\U{2029}'}

  /** Where the first line of `s` ends: the index of its first line break,
      or `|s|` when it has none. */
  function FirstBreak(s: string): (b: nat)
    ensures b <= |s|
    ensures forall k :: 0 <= k < b ==> s[k] !in LineBreaks
    ensures b < |s| ==> s[b] in LineBreaks
  {
    if |s| == 0 || s[0] in LineBreaks then 0
    else
      var m := FirstBreak(s[1..]);
      assert forall k :: 1 <= k < m + 1 ==> s[k] == s[1..][k - 1];
      m + 1
  }

  /** Where the line after the break at `b` starts: "\r\n" takes two
      characters, every other break one. */
  function AfterBreak(s: string, b: nat): (e: nat)
    requires b <= |s|
    ensures b <= e <= |s|
  {
    if b == |s| then b
    else if s[b] == '\r' && b + 1 < |s| && s[b + 1] == '\n' then b + 2
    else b + 1
  }

  /** `len(s.splitlines())`: the number of lines, where a final line break
      does not start another (empty) line. */
  function LineCount(s: string): nat
    decreases |s|
  {
    if |s| == 0 then 0
    else
      var e := AfterBreak(s, FirstBreak(s));
      assert e > 0;
      1 + LineCount(s[e..])
  }

  /** More than one line, the test the email library makes before it stores
      a header value. */
  predicate MultiLine(s: string) {
    LineCount(s) > 1
  }

  /** The break at `i` is the last thing in `s`. */
  predicate FinalBreak(s: string, i: int)
    requires 0 <= i < |s|
  {
    i == |s| - 1 || (i == |s| - 2 && s[i] == '\r' && s[i + 1] == '\n')
  }

  /** A text spans several lines exactly when it has a line break other than
      one that ends it. */
  lemma MultiLineIffInnerBreak(s: string)
    ensures MultiLine(s) <==> exists i :: 0 <= i < |s| && s[i] in LineBreaks && !FinalBreak(s, i)
  {
    if |s| > 0 {
      var b := FirstBreak(s);
      var e := AfterBreak(s, b);
      if e < |s| {
        assert LineCount(s[e..]) >= 1;
        assert LineCount(s) == 1 + LineCount(s[e..]);
        assert s[b] in LineBreaks && !FinalBreak(s, b);
      } else {
        forall i | 0 <= i < |s| && s[i] in LineBreaks
          ensures FinalBreak(s, i)
        {
          assert b <= i;
        }
      }
    }
  }

  /** The characters `str.isspace` accepts, which `str.strip()` removes. */
  const Whitespace: set<char> :=
    {'\t', '\n', '\U{0B}', '\U{0C}', '\r', '\U{1C}', '\U{1D}', '\U{1E}', '\U{1F}', ' ',
     '\U{85}', '\U{A0}', '\U{1680}', '\U{2000}', '\U{2001}', '\U{2002}', '\U{2003}', '\U{2004}',
     '\U{2005}', '\U{2006}', '\U{2007}', '\U{2008}', '\U{2009}', '\U{200A}', '\U{2028}',
     '\U{2029}', '\U{202F}', '\U{205F}', '\U{3000}'}

  function LowerChar(c: char): char {
    if 'A' <= c <= 'Z' then (c as int - 'A' as int + 'a' as int) as char else c
  }

  /** `s.lower()` on the ASCII letters; every other character is kept. */
  function AsciiLower(s: string): (r: string)
    ensures |r| == |s|
    ensures forall i :: 0 <= i < |s| ==> r[i] == LowerChar(s[i])
  {
    seq(|s|, i requires 0 <= i < |s| => LowerChar(s[i]))
  }

  lemma AsciiLowerAppend(a: string, b: string)
    ensures AsciiLower(a + b) == AsciiLower(a) + AsciiLower(b)
  {
  }
}

=== FILE: wrappers.dfy ===
/** Failure-compatible wrappers used throughout the model: an optional value
    and a result that is either a value or an error. */
module Wrappers {

  datatype Option<+T> = None | Some(value: T) {

    /** The value if present, otherwise `default` (Python's `d.get(k, default)`). */
    function GetOr(default: T): T {
      match this
      case Some(v) => v
      case None => default
    }
  }

  datatype Result<+T, +E> = Success(value: T) | Failure(error: E) {

    predicate IsFailure() {
      Failure?
    }

    function PropagateFailure<U>(): Result<U, E>
      requires Failure?
    {
      Failure(error)
    }

    function Extract(): T
      requires Success?
    {
      value
    }
  }
}
